=== FILE: README.md ===
# Blend UI core logic in Dafny

A model of the client-side logic of the Blend lending protocol's web front-end. Each module covers one part:

- **Comet**: the estimators for the Comet 80/20 BLND/USDC weighted pool, whose LP token backs the protocol's backstop. They quote a join, an exit, a join funded by fixed token amounts, and a single-sided deposit.
- **Auction**: the oracle valuation of an auction's lot and bid. Each entry is priced at the backstop LP token price or through its reserve and the oracle price. One missing reserve or price makes the whole valuation unavailable.
- **BackstopMint**: the backstop mint form. It covers the first-match validation chain, the guard that decides whether to request an LP estimate when the amount changes, and the BLND/USDC deposit-token toggle.
- **Formatter**: the display formatters for balances, percentages, compact addresses and time spans.
- **Settings**: the view type derived from the screen breakpoints, and the list of tracked pools.
- **Layout**: the default page layout. It validates pool ids from the URL, picks the faucet pool, settles the protocol version, and sizes the main column.

The model treats JavaScript numbers as exact reals and bigints as unbounded integers, so the estimators' formulas hold without rounding. Behaviour defined outside these files is a parameter of the model:

| parameter | source behaviour | where |
|---|---|---|
| `pow` | `**` with a real exponent | Comet |
| `Market.toAsset` | `Reserve.toAssetFromDTokenFloat` | Auction |
| `scale` | `scaleInputToBigInt(_, 7)` | BackstopMint |
| `format` | `Intl.NumberFormat` | Formatter |

`backstop.dfy` holds the SDK's backstop token snapshot and backstop config, which the modules share. `wrappers.dfy` holds `Option`, `fixed_math.dfy` holds the 7-decimal conversion `FixedMath.toFloat`, and `strings.dfy` holds decimal rendering of integers and `Array.join`.

## Model

| member | source | states |
|---|---|---|
| Comet.Weight | src/utils/comet.ts:29 | BLND weighs 0.8 and USDC 0.2, both strictly between 0 and 1 |
| Comet.WeightedFee | src/utils/comet.ts:30-31 | the fee on the implicitly swapped part is (1 - weight) x 3%: 0.6% for BLND, 2.4% for USDC |
| Comet.EstJoinPool | src/utils/comet.ts:7-16 | each token's quote is its pool balance in whole tokens x toMint/shares x (1 + slippage); the source's (shares + toMint)/shares - 1 is exactly toMint/shares |
| Comet.EstExitPool | src/utils/comet.ts:64-73 | each token's quote is its pool balance x toBurn/shares x (1 - slippage) |
| Comet.JoinKeepsPoolRatio | src/utils/comet.ts:12-14 | a join asks for BLND and USDC in exactly the pool's own BLND:USDC proportion |
| Comet.JoinMonotoneInSlippage | src/utils/comet.ts:13-14 | a larger slippage tolerance never lowers the join quote for non-negative pools |
| Comet.ExitAllShares | src/utils/comet.ts:69-71 | burning every share with no slippage returns the full pool balances |
| Comet.JoinExitSymmetric | src/utils/comet.ts:12-14 | with zero slippage, minting and burning the same shares are quoted identical token amounts |
| Comet.ExitNeverExceedsJoin | src/utils/comet.ts:69-71 | with non-negative slippage, an exit never returns more than the matching join asks for |
| Comet.JoinExample | src/utils/comet.ts:7-16 | minting 100 of 1000 shares of an 800 BLND / 200 USDC pool takes 80 BLND and 20 USDC |
| Comet.EstLPTokenViaJoin | src/utils/comet.ts:44-59 | the result is at most the shares either token alone buys, and equals one of them: the scarcer token binds |
| Comet.JoinAmountSimplified | src/utils/comet.ts:51-57 | the two 1e7 scalings cancel, leaving shares x amount x (1 - slippage) / balance |
| Comet.LPViaJoinProportional | src/utils/comet.ts:44-59 | supplying tokens in exact toMint/shares proportion with no slippage buys exactly toMint shares, so it inverts the join |
| Comet.EstSingleSidedDeposit | src/utils/comet.ts:24-39 | the shares minted are shares x (ratio^weight - 1), where the ratio is 1 + amount x (1 - weighted fee) / the token's pool balance, the 1e7 scalings having cancelled; a zero deposit mints nothing when pow(1, w) = 1 |
| Comet.DepositRatioSimplified | src/utils/comet.ts:32-35 | the post-deposit ratio computed on 7-decimal floats equals the one computed on the raw integers |
| Comet.SingleSidedZeroDeposit | src/utils/comet.ts:24-39 | a zero deposit leaves the ratio at 1 and mints nothing, for any power with pow(1, w) = 1 |
| Comet.SingleSidedMonotone | src/utils/comet.ts:24-39 | for a power non-decreasing in its base, depositing more never mints fewer shares |
| Comet.DepositRatioMonotone | src/utils/comet.ts:32-36 | the post-deposit balance ratio is positive and non-decreasing in the deposit |
| FixedMath.ToFloat | src/utils/auction.ts:32 | the float times 10^decimals is the raw amount, and the sign is kept |
| FixedMath.ToFloat7 | src/utils/comet.ts:13 | the float times 1e7 is the raw amount |
| Auction.CalculateAuctionOracleProfit | src/utils/auction.ts:10-74 | the two loops with their early returns compute exactly the fold `OracleProfitOf` over the lot and then the bid |
| Auction.ValueSideFailsIff | src/utils/auction.ts:36-40 | a side is unavailable iff some entry of it cannot be valued |
| Auction.OracleProfitAllOrNothing | src/utils/auction.ts:36-40 | the result is undefined iff some pool-valued lot or bid entry lacks its reserve or oracle price; never a partial result |
| Auction.LpPricedSideNeverFails | src/utils/auction.ts:31-35 | bad-debt lots and interest bids never fail, so each of those auctions is available iff its other side is |
| Auction.OracleProfitOnSuccess | src/utils/auction.ts:33-34 | on success the maps are keyed by exactly the lot and bid assets, and each total is the sum of its map's values |
| Auction.OracleProfitEntryValues | src/utils/auction.ts:29-66 | on success each asset holds its LP-token value or its reserve-converted amount times its oracle price, by auction type and side |
| Auction.ValueSideKeys | src/utils/auction.ts:43 | a successful side's map has exactly the entries' assets as keys |
| Auction.ValueSideValues | src/utils/auction.ts:42-43 | a successful side maps each asset to its entry's value |
| Auction.ValueSideTotal | src/utils/auction.ts:44 | with distinct assets, the running total equals the sum of the map |
| Auction.ValueSideOrderIndependent | src/utils/auction.ts:29 | the valuation of a side does not depend on the Map's insertion order |
| Auction.OracleProfitOrderIndependent | src/utils/auction.ts:29-66 | reordering the lot or bid entries leaves the result unchanged |
| Auction.BadDebtExample | src/utils/auction.ts:31-35 | one LP token in a bad-debt lot at LP price 2.5 is worth 2.5 with no reserve or price at all |
| BackstopMint.IndexOf | src/components/backstop/BackstopMintAnvil.tsx:69 | the first position of the character, or None when absent |
| BackstopMint.FractionDigits | src/components/backstop/BackstopMintAnvil.tsx:69 | `split('.')[1]` is undefined iff the text has no point; otherwise its length is that of the point-free run after the first point, which ends at the end of the text or at the next point |
| BackstopMint.FractionDigitsOfDecimal | src/components/backstop/BackstopMintAnvil.tsx:69 | "whole.fraction" has as many fraction digits as the fraction has characters |
| BackstopMint.HalfPoolCap | src/components/backstop/BackstopMintAnvil.tsx:82 | with BigInt truncating division, the cap is the largest deposit below half the pool balance, within one |
| BackstopMint.Validate | src/components/backstop/BackstopMintAnvil.tsx:50-112 | submit is enabled iff every input guard passes and an estimate is ready; max is disabled iff there is no balance or the cap is hit; a reason is shown iff submit is disabled; "info" exactly for the enter-amount and loading reasons; an over-half-pool reason is shown iff the balance, amount and decimals guards pass and the deposit token's own cap is hit, and then the amount exceeds the shown maximum; with every guard passed and an estimate ready, submit is enabled with no reason |
| BackstopMint.ValidationPriority | src/components/backstop/BackstopMintAnvil.tsx:59-107 | the first failing guard's reason is reported whatever the later guards would say: no balance, then no amount, then too many decimals, then over the balance, then over half the BLND pool for a BLND deposit, then over half the USDC pool for a USDC deposit (each with its cap and a warning), then the loading estimate |
| BackstopMint.CapNeedsKnownPool | src/components/backstop/BackstopMintAnvil.tsx:79-102 | with the pool balances unknown or zero, the half-pool error never appears |
| BackstopMint.SwapChangeAsWritten | src/components/backstop/BackstopMintAnvil.tsx:132-170 | with a token selected and at most 7 decimals typed, the estimate is reset iff the amount exceeds EITHER pool's half-balance cap, and an estimate of exactly that amount is requested iff it exceeds neither cap and is within the wallet balance; nothing happens otherwise |
| BackstopMint.SwapChange | src/components/backstop/BackstopMintAnvil.tsx:132-170 | the corrected handler of the second finding, which applies the deposit token's own cap as the validation at lines 79-102 does: with a token selected and at most 7 decimals typed, the estimate is reset iff that cap is hit, and an estimate of exactly the amount is requested iff the cap is not hit and the amount is within the wallet balance |
| BackstopMint.SwapChangeAsWrittenResetsMore | src/components/backstop/BackstopMintAnvil.tsx:140-147 | the handler as written resets whenever the corrected one does, and requests an estimate only when the corrected one requests the same |
| BackstopMint.SwapChangeAgreesWithValidation | src/components/backstop/BackstopMintAnvil.tsx:132-170 | with a token selected, a balance and an amount typed, an estimate is requested iff the validation accepts the input |
| BackstopMint.SwapChangeAsWrittenBlocksValidBlndDeposit | src/components/backstop/BackstopMintAnvil.tsx:140-147 | a BLND deposit that passes validation is reset by the as-written handler because it exceeds the USDC cap |
| BackstopMint.SwitchDepositToken | src/components/backstop/BackstopMintAnvil.tsx:185-197 | USDC switches to BLND and anything else to USDC, with the address from the config when loaded and undefined otherwise |
| BackstopMint.SwitchTwiceFromUsdc | src/components/backstop/BackstopMintAnvil.tsx:185-197 | switching twice from USDC comes back to USDC |
| BackstopMint.SwitchIsInvolution | src/components/backstop/BackstopMintAnvil.tsx:185-197 | on the tokens it produces, the toggle is its own inverse |
| Formatter.NumValue | src/utils/formatter.ts:17-28 | the balance shown is "--" iff the amount is undefined, non-finite, or a bigint without decimals |
| Formatter.RoundHalfAway | src/utils/formatter.ts:58 | the rounded integer is within one half of the number, and a tie goes to the larger magnitude, as `toFixed(0)` rounds |
| Formatter.PostfixIndexFor | src/utils/formatter.ts:59-62 | the index is below the number of postfixes, and 1 to 27 integer places leave one to three places before the postfix |
| Formatter.PostfixIndexAsWritten | src/utils/formatter.ts:58-62 | the index counts every character of the rounded value's text, the '-' included; it is a valid postfix index and agrees with the digit count for non-negative values |
| Formatter.PostfixOf | src/utils/formatter.ts:58-62 | the postfix `toBalance` uses is the as-written index of the number rounded by `toFixed(0)`, a valid index |
| Formatter.PostfixLeavesOneToThreeDigits | src/utils/formatter.ts:58-63 | counting digits only, every non-zero integer below 10^27 is between 10^(3k) and 10^(3k+3) for its postfix index k |
| Formatter.PostfixAsWrittenMisplacesNegatives | src/utils/formatter.ts:58 | -123456 gets postfix "M" as written, where the digit count gives "k" |
| Formatter.CompactOf | src/utils/formatter.ts:58-69 | the postfix is the as-written one, counting the '-' of a negative number, and the mantissa times 10^(3 x postfix index) is the number |
| Formatter.BalanceOf | src/utils/formatter.ts:30-69 | "0" iff zero; below 10000 in magnitude the number itself, with 2 fraction digits from 1 up or from magnitude 10 up and min(decimals, 7) below; from 10000 up a mantissa and the as-written postfix (the '-' counted) that together denote the number |
| Formatter.ToBalance | src/utils/formatter.ts:13-70 | "--" iff there is no number to show; "0" iff it is zero; below 10000 in magnitude the number with at most 7 fraction digits, 2 from 1 up; from 10000 up the as-written postfix with a mantissa that denotes the number |
| Formatter.ToBalanceSixDigitNegative | src/utils/formatter.ts:58-63 | as written, -123456 is shown with postfix "M" while 123456 is shown with "k" |
| Formatter.ToPercentage | src/utils/formatter.ts:78-89 | "--" iff the rate is undefined; otherwise the text ends in '%' |
| Formatter.ToCompactAddress | src/utils/formatter.ts:95-103 | "" for an empty or missing address; unchanged below 10 characters; otherwise 11 characters, the first four and last four around "..." |
| Formatter.CompactAddressIdempotent | src/utils/formatter.ts:95-103 | compacting an already compacted address changes nothing |
| Formatter.Decompose | src/utils/formatter.ts:109-114 | days, hours, minutes and seconds recompose to the input, with hours below 24 and minutes and seconds below 60 |
| Formatter.TimeTokens | src/utils/formatter.ts:116-119 | one to three tokens; days come first when non-zero; the last token is the seconds without days and the minutes with them |
| Formatter.ToTimeSpan | src/utils/formatter.ts:108-121 | the text has at least two characters and ends with 's' when there are no days and with 'm' otherwise |
| Formatter.RenderedEndsWithUnit | src/utils/formatter.ts:116-120 | the joined tokens end with the last token's unit letter |
| Formatter.TimeSpanTokens | src/utils/formatter.ts:116-120 | days shown iff non-zero; hours and minutes from the first non-zero unit on; seconds iff there are no days; units largest first |
| Formatter.TimeSpanLosesOnlySeconds | src/utils/formatter.ts:108-121 | the shown tokens add up to the whole span, minus the seconds once days are shown |
| Formatter.TimeSpanUnderAMinute | src/utils/formatter.ts:108-121 | under a minute the text is the seconds followed by "s" |
| Formatter.TimeSpanOfZero | src/utils/formatter.ts:108-121 | a span of zero seconds reads "0s" |
| Strings.NatToStringLength | src/utils/formatter.ts:58 | the decimal rendering has exactly as many characters as the number has digits |
| Settings.ViewTypeOf | src/contexts/settings.tsx:64-67 | mobile iff below `sm`; compact iff below `lg` but not `sm`; regular otherwise |
| Settings.Find | src/contexts/settings.tsx:87 | `find` returns None iff no pool has the id, else the first pool with it |
| Settings.TrackPool | src/contexts/settings.tsx:85-90 | nothing changes without a name or when the id is tracked; otherwise the pool is appended |
| Settings.TrackPoolPreserves | src/contexts/settings.tsx:85-90 | the existing pools stay in order, the id is tracked once named, and ids stay unique |
| Settings.TrackPoolIdempotent | src/contexts/settings.tsx:85-90 | once a named pool is tracked, tracking its id again with any name changes nothing |
| Layout.AllPoolIdChars | src/layouts/DefaultLayout.tsx:25 | true iff every character is in `[0-9A-Z]` |
| Layout.SafePoolId | src/layouts/DefaultLayout.tsx:24-25 | the query's pool id is accepted iff it is one string of exactly 56 characters from `[0-9A-Z]`, and then unchanged |
| Layout.PageSafePoolId | src/pages/supply.tsx:22 | the pages' variant is the layout's id with "" for undefined, and "" exactly when the layout rejects the id |
| Layout.TrackedPoolFor | src/layouts/DefaultLayout.tsx:26 | a tracked pool is found only for a valid id and has that id; none is found for an invalid id or an untracked one |
| Layout.FaucetPool | src/layouts/DefaultLayout.tsx:32-36 | a faucet pool exists iff the backstop is loaded with a non-empty reward zone, and it is one of that zone's pools |
| Layout.FaucetPoolIgnoresNewerPools | src/layouts/DefaultLayout.tsx:32-36 | pools added in front of a non-empty reward zone do not change the faucet pool, which is the last one |
| Layout.VersionOf | src/layouts/DefaultLayout.tsx:38-42 | a tracked pool's `version` field wins even when it is undefined; else a URL version of exactly "V1" or "V2"; else the settings version; the result is undefined only from an undefined field or an undefined settings version |
| Layout.PageVersion | src/layouts/DefaultLayout.tsx:26-42 | the tracked pools carry no version, so whenever the URL's pool id is valid and tracked the version is undefined; with no valid id it falls back to the URL and the settings |
| Layout.MainLayoutOf | src/layouts/DefaultLayout.tsx:51-52 | mobile and compact views are full width with no margin; the regular view is 886px with 62px margins |
| Layout.FullWidthIffSmallScreen | src/layouts/DefaultLayout.tsx:51-52 | the main column spans the screen iff the screen is below `sm` or `lg` |

## Left out

- Comet.EstJoinPool and Comet.EstExitPool: require a non-zero share count. The source divides by it and yields NaN or Infinity, which are not modelled.
- Comet.EstLPTokenViaJoin: requires non-zero pool balances, for the same reason.
- Comet.EstSingleSidedDeposit: requires the deposited token's pool balance to be non-zero, for the same reason. `**` with a real exponent is the parameter `pow`, so the contract states the curve in terms of `pow`; `SingleSidedMonotone` adds what follows for a monotone `pow`.
- Floating-point rounding: every `Number` computation is exact real arithmetic.
- `toFixed` and `Intl.NumberFormat` digit rendering: Formatter.ToBalance returns the number, the fraction digits and the postfix, not the final text. Formatter.ToPercentage takes the formatter as a parameter.
- Formatter.ToBalance: the `minValue`/`adjAmount` computation at formatter.ts:52-54 is dead, because its result is overwritten at line 63. The `console.error` call is not modelled.
- Formatter.ToCompactAddress: the length threshold and the `substring` bounds count characters, not UTF-16 code units. An address with characters outside the Basic Multilingual Plane is measured shorter than in the source: five such characters are left unchanged here, while the source sees length 10 and compacts them. Stellar addresses are ASCII, where the two counts agree.
- Formatter.ToPercentage: the default of two decimals is the caller's argument here.
- Formatter.PostfixOf: for a magnitude of 1e21 or more, `toFixed(0)` returns exponential text such as "1e+21", whose length picks a small postfix. The model counts the full decimal rendering instead, so the postfix and mantissa there differ from the source's.
- Formatter.ToTimeSpan: whole seconds only. Fractional seconds would print as a JavaScript decimal, which the model does not render.
- `getEmissionTextFromValue` is a one-line wrapper around `toBalance` and is not modelled separately.
- Auction.CalculateAuctionOracleProfit: the `console.log` call is not modelled. The reserves' `toAssetFromDTokenFloat` and the oracle's prices belong to the protocol SDK and are inputs.
- Auction.ValueSideTotal and the success lemmas: they require distinct assets, which a JavaScript Map guarantees. A sequence of entries does not.
- BackstopMint: `handleMaxClick` (BackstopMintAnvil.tsx:122-130) fills the input with the wallet balance as text; it lies outside the validator and is not modelled. `handleSubmitTransaction`, `loadCometBalances` and the RPC simulation behind the estimate are I/O. The estimate's result is the `toMint` input, and the debounce and React effects are not modelled.
- BackstopMint.FractionDigits: lengths and positions count characters (Unicode scalar values), while JavaScript's `split` and `.length` count UTF-16 code units. A fraction containing characters outside the Basic Multilingual Plane is therefore measured shorter than in the source: four such characters count as 4 here, but 8 in the source, which reports too many decimals. The same holds for BackstopMint.IndexOf.
- BackstopMint.Validate: `scaleInputToBigInt` is defined in src/utils/scval.ts, which is not part of this model, and is the parameter `scale`.
- Settings.TrackPool: modelled as one call on the current list. Within one render every `trackPool` call reads the same `trackedPools` and writes a whole new list, so when several cards load together (src/components/markets/MarketCard.tsx:39-44) only the last write survives. Settings.TrackPoolPreserves and Settings.TrackPoolIdempotent hold for calls made one after another on the updated list, not for such batched calls.
- Settings: the network, RPC and horizon servers, `lastPool`, `showLend`/`showJoinPool` and the local-storage JSON round trip are not modelled.
- Layout.VersionOf: settings.tsx declares `TrackedPool` without a version and exposes no version setting, yet the layout reads both. The tracked pool's version field and the settings version are therefore inputs, each possibly undefined; Layout.PageVersion fixes the field to undefined, as the settings store it.
- Layout: the effect that tracks the loaded pool (DefaultLayout.tsx:44-49) calls `trackPool`, modelled as Settings.TrackPool. The testnet check for the faucet banner and the rendering are not modelled.
- The interest-rate graph and the pool and reserve estimates shown by the pages are not part of this model.

## Findings

| source | as written | input that shows it | evidently intended | confidence | as-written member | corrected member |
|---|---|---|---|---|---|---|
| src/utils/formatter.ts:58-62 | `integerPlaces` is the length of `toFixed(0)`, which counts the '-' of a negative number | -123456: 7 characters, postfix index 2 ("M"), mantissa -0.123456 | count digits only: index 1 ("k"), mantissa -123.456 | medium, not executed | Formatter.ToBalanceSixDigitNegative | Formatter.PostfixLeavesOneToThreeDigits |
| src/components/backstop/BackstopMintAnvil.tsx:140-147 | `handleSwapChange` resets the estimate when the amount exceeds half of EITHER pool balance, whichever token is deposited | a BLND deposit of 200 with pool BLND 1000 and pool USDC 100: validation passes and waits for an estimate, but the handler resets it, so the form stays at "Loading estimate..." | apply the deposit token's own cap, as the validation at lines 79-102 does | medium, not executed | BackstopMint.SwapChangeAsWrittenBlocksValidBlndDeposit | BackstopMint.SwapChange |

Formatter.ToBalance and BackstopMint.SwapChangeAsWritten keep the code as written. The corrected definitions, Formatter.PostfixIndex and BackstopMint.SwapChange, carry the intended properties: Formatter.PostfixLeavesOneToThreeDigits, and BackstopMint.SwapChangeAgreesWithValidation, which shows the corrected handler requests an estimate exactly when the validation accepts the input.

The model follows the code on three points where a reader might expect otherwise:

- A lot or bid entry without a reserve or oracle price makes the whole valuation undefined. It is not valued at zero.
- Both auction sides use the reserve's d-token conversion.
- The Comet weights and fee are the constants written in comet.ts, not values read from the pool.

=== FILE: auction.dfy ===
/**
 * Oracle valuation of an auction's lot and bid (src/utils/auction.ts).
 * Each entry is valued either at the backstop LP token price or through the
 * pool reserve's d-token conversion and the oracle price; one missing reserve
 * or price makes the whole valuation unavailable.
 */
module Auction {
  import opened Wrappers
  import opened Backstop
  import opened FixedMath

  datatype AuctionType = Liquidation | BadDebt | Interest

  datatype Side = Lot | Bid

  /** One lot or bid entry: an asset id and a fixed-point amount. */
  datatype Entry = Entry(asset: string, amount: int)

  /** An auction's lot and bid, as the entries of a JavaScript Map in insertion order. */
  datatype AuctionData = AuctionData(lot: seq<Entry>, bid: seq<Entry>)

  /** What the valuation reads besides the auction: the pool's reserves and
      the oracle's prices by asset id (an absent key is `undefined`), the
      backstop token with its LP token price, and `Reserve.toAssetFromDTokenFloat`, whose
      definition lives in the protocol SDK and is taken as given. */
  datatype Market<!R> = Market(
    reserves: map<string, R>,
    prices: map<string, real>,
    backstopToken: BackstopToken,
    toAsset: (R, int) -> real)

  /** The valuation of one side: USD value per asset and their running total. */
  datatype Valuation = Valuation(values: map<string, real>, total: real)

  datatype OracleProfit = OracleProfit(
    lot: map<string, real>,
    bid: map<string, real>,
    totalLotValue: real,
    totalBidValue: real)

  /** Entries valued directly at the LP token price: the lot of a bad-debt
      auction and the bid of an interest auction are backstop LP tokens. */
  predicate PricedInLpTokens(kind: AuctionType, side: Side) {
    (side == Lot && kind == BadDebt) || (side == Bid && kind == Interest)
  }

  /** USD value of one entry, or None when its reserve or price is missing. */
  function EntryValue<R>(kind: AuctionType, side: Side, e: Entry, market: Market<R>): Option<real> {
    if PricedInLpTokens(kind, side) then
      Some(LpValue(e, market))
    else if e.asset !in market.reserves || e.asset !in market.prices then
      None
    else
      Some(OracleValue(e, market))
  }

  /** An amount of backstop LP tokens (7 decimals) at the LP token price. */
  function LpValue<R>(e: Entry, market: Market<R>): real {
    ToFloat7(e.amount) * market.backstopToken.lpTokenPrice
  }

  /** An amount of a reserve's d-tokens converted to the asset, at the oracle price. */
  function OracleValue<R>(e: Entry, market: Market<R>): real
    requires e.asset in market.reserves && e.asset in market.prices
  {
    market.toAsset(market.reserves[e.asset], e.amount) * market.prices[e.asset]
  }

  /** The valuation of one side, folding the entries left to right as the
      loops of `calculateAuctionOracleProfit` do: each value is set in the map
      and added to the total. */
  function ValueSide<R>(kind: AuctionType, side: Side, entries: seq<Entry>, market: Market<R>): Option<Valuation>
    decreases |entries|
  {
    if |entries| == 0 then Some(Valuation(map[], 0.0))
    else
      var last := entries[|entries| - 1];
      match ValueSide(kind, side, entries[..|entries| - 1], market)
      case None => None
      case Some(acc) =>
        match EntryValue(kind, side, last, market)
        case None => None
        case Some(v) => Some(Valuation(acc.values[last.asset := v], acc.total + v))
  }

  /** `calculateAuctionOracleProfit` as a function: the lot side, then the bid side. */
  function OracleProfitOf<R>(auction: AuctionData, kind: AuctionType, market: Market<R>): Option<OracleProfit> {
    match ValueSide(kind, Lot, auction.lot, market)
    case None => None
    case Some(lot) =>
      match ValueSide(kind, Bid, auction.bid, market)
      case None => None
      case Some(bid) => Some(OracleProfit(lot.values, bid.values, lot.total, bid.total))
  }

  function Assets(entries: seq<Entry>): set<string> {
    set i | 0 <= i < |entries| :: entries[i].asset
  }

  /** Map entries never repeat a key. */
  predicate DistinctAssets(entries: seq<Entry>) {
    forall i, j :: 0 <= i < j < |entries| ==> entries[i].asset != entries[j].asset
  }

  /** Sum of the values of a map, independent of any enumeration order. */
  ghost function MapSum<K>(m: map<K, real>): real
    decreases |m|
  {
    if |m| == 0 then 0.0
    else
      var k :| k in m;
      m[k] + MapSum(m - {k})
  }

  lemma MapSumUnfold<K>(m: map<K, real>) returns (j: K)
    requires |m| > 0
    ensures j in m && MapSum(m) == m[j] + MapSum(m - {j})
  {
    j :| j in m && MapSum(m) == m[j] + MapSum(m - {j});
  }

  /** Whichever key is taken out first, the sum comes out the same. */
  lemma {:induction false} MapSumRemove<K>(m: map<K, real>, k: K)
    requires k in m
    ensures MapSum(m) == m[k] + MapSum(m - {k})
    decreases |m|
  {
    assert m.Keys >= {k};
    var j := MapSumUnfold(m);
    if j != k {
      var mj := m - {j};
      var mk := m - {k};
      assert mj.Keys == m.Keys - {j};
      assert mk.Keys == m.Keys - {k};
      MapSumRemove(mj, k);
      MapSumRemove(mk, j);
      assert mj - {k} == mk - {j};
    }
  }

  /** All or nothing: a side is unavailable exactly when one of its entries
      cannot be valued. */
  lemma {:induction false} ValueSideFailsIff<R>(kind: AuctionType, side: Side, entries: seq<Entry>, market: Market<R>)
    ensures ValueSide(kind, side, entries, market).None?
        <==> exists i :: 0 <= i < |entries| && EntryValue(kind, side, entries[i], market).None?
    decreases |entries|
  {
    if |entries| > 0 {
      var n := |entries| - 1;
      var prefix := entries[..n];
      ValueSideFailsIff(kind, side, prefix, market);
      if ValueSide(kind, side, prefix, market).None? {
        var i :| 0 <= i < |prefix| && EntryValue(kind, side, prefix[i], market).None?;
        assert entries[i] == prefix[i];
      } else if EntryValue(kind, side, entries[n], market).Some? {
        forall i | 0 <= i < |entries|
          ensures EntryValue(kind, side, entries[i], market).Some?
        {
          if i < n {
            assert entries[i] == prefix[i];
          }
        }
      }
    }
  }

  /** One step of the fold: a successful side extends the successful
      valuation of its prefix by its last entry. */
  lemma ValueSideStep<R>(kind: AuctionType, side: Side, entries: seq<Entry>, market: Market<R>)
    requires |entries| > 0
    requires ValueSide(kind, side, entries, market).Some?
    ensures var n := |entries| - 1;
      && ValueSide(kind, side, entries[..n], market).Some?
      && EntryValue(kind, side, entries[n], market).Some?
      && ValueSide(kind, side, entries, market).value
         == Valuation(
              ValueSide(kind, side, entries[..n], market).value.values[entries[n].asset := EntryValue(kind, side, entries[n], market).value],
              ValueSide(kind, side, entries[..n], market).value.total + EntryValue(kind, side, entries[n], market).value)
  {
  }

  lemma AssetsSnoc(entries: seq<Entry>)
    requires |entries| > 0
    ensures Assets(entries) == Assets(entries[..|entries| - 1]) + {entries[|entries| - 1].asset}
  {
    var n := |entries| - 1;
    var prefix := entries[..n];
    forall a | a in Assets(entries) ensures a in Assets(prefix) + {entries[n].asset} {
      var i :| 0 <= i < |entries| && entries[i].asset == a;
      if i < n { assert prefix[i] == entries[i]; }
    }
    forall a | a in Assets(prefix) ensures a in Assets(entries) {
      var i :| 0 <= i < |prefix| && prefix[i].asset == a;
      assert entries[i] == prefix[i];
    }
  }

  /** On success a side's map is keyed by exactly the entries' assets. */
  lemma {:induction false} ValueSideKeys<R>(kind: AuctionType, side: Side, entries: seq<Entry>, market: Market<R>)
    requires ValueSide(kind, side, entries, market).Some?
    ensures ValueSide(kind, side, entries, market).value.values.Keys == Assets(entries)
    decreases |entries|
  {
    if |entries| > 0 {
      ValueSideStep(kind, side, entries, market);
      ValueSideKeys(kind, side, entries[..|entries| - 1], market);
      AssetsSnoc(entries);
    }
  }

  /** On success each asset's value in the map is its entry's value. */
  lemma {:induction false} ValueSideValues<R>(kind: AuctionType, side: Side, entries: seq<Entry>, market: Market<R>)
    requires DistinctAssets(entries)
    requires ValueSide(kind, side, entries, market).Some?
    ensures forall i :: 0 <= i < |entries| ==>
      && EntryValue(kind, side, entries[i], market).Some?
      && entries[i].asset in ValueSide(kind, side, entries, market).value.values
      && ValueSide(kind, side, entries, market).value.values[entries[i].asset]
         == EntryValue(kind, side, entries[i], market).value
    decreases |entries|
  {
    if |entries| > 0 {
      var n := |entries| - 1;
      var prefix := entries[..n];
      ValueSideStep(kind, side, entries, market);
      ValueSideValues(kind, side, prefix, market);
      var v := ValueSide(kind, side, entries, market).value;
      forall i | 0 <= i < |entries|
        ensures EntryValue(kind, side, entries[i], market).Some?
        ensures entries[i].asset in v.values
        ensures v.values[entries[i].asset] == EntryValue(kind, side, entries[i], market).value
      {
        if i < n {
          assert entries[i] == prefix[i];
          assert entries[i].asset != entries[n].asset;
        }
      }
    }
  }

  lemma MapSumInsert<K>(m: map<K, real>, k: K, x: real)
    requires k !in m
    ensures MapSum(m[k := x]) == x + MapSum(m)
  {
    MapSumRemove(m[k := x], k);
    assert m[k := x] - {k} == m;
  }

  lemma LastAssetIsNew(entries: seq<Entry>)
    requires DistinctAssets(entries) && |entries| > 0
    ensures entries[|entries| - 1].asset !in Assets(entries[..|entries| - 1])
  {
    var n := |entries| - 1;
    var prefix := entries[..n];
    forall i | 0 <= i < |prefix| ensures prefix[i].asset != entries[n].asset {
      assert prefix[i] == entries[i];
    }
  }

  /** On success a side's total is the sum of its map's values: no entry is
      counted twice and none is left out. */
  lemma {:induction false} ValueSideTotal<R>(kind: AuctionType, side: Side, entries: seq<Entry>, market: Market<R>)
    requires DistinctAssets(entries)
    requires ValueSide(kind, side, entries, market).Some?
    ensures ValueSide(kind, side, entries, market).value.total
         == MapSum(ValueSide(kind, side, entries, market).value.values)
    decreases |entries|
  {
    if |entries| == 0 {
      assert ValueSide(kind, side, entries, market).value.values == map[];
    } else {
      var n := |entries| - 1;
      var prefix := entries[..n];
      ValueSideStep(kind, side, entries, market);
      assert DistinctAssets(prefix);
      ValueSideTotal(kind, side, prefix, market);
      ValueSideKeys(kind, side, prefix, market);
      LastAssetIsNew(entries);
      var acc := ValueSide(kind, side, prefix, market).value;
      MapSumInsert(acc.values, entries[n].asset, EntryValue(kind, side, entries[n], market).value);
    }
  }

  /** The valuation depends only on the set of entries, not on the Map's
      insertion order. */
  lemma ValueSideOrderIndependent<R>(kind: AuctionType, side: Side, e1: seq<Entry>, e2: seq<Entry>, market: Market<R>)
    requires DistinctAssets(e1) && DistinctAssets(e2)
    requires forall e :: e in e1 <==> e in e2
    ensures ValueSide(kind, side, e1, market) == ValueSide(kind, side, e2, market)
  {
    FailureCarriesOver(kind, side, e1, e2, market);
    FailureCarriesOver(kind, side, e2, e1, market);
    if ValueSide(kind, side, e1, market).Some? && ValueSide(kind, side, e2, market).Some? {
      SameValuesForSameEntries(kind, side, e1, e2, market);
      ValueSideTotal(kind, side, e1, market);
      ValueSideTotal(kind, side, e2, market);
    }
  }

  lemma FailureCarriesOver<R>(kind: AuctionType, side: Side, e1: seq<Entry>, e2: seq<Entry>, market: Market<R>)
    requires forall e :: e in e1 ==> e in e2
    ensures ValueSide(kind, side, e1, market).None? ==> ValueSide(kind, side, e2, market).None?
  {
    ValueSideFailsIff(kind, side, e1, market);
    ValueSideFailsIff(kind, side, e2, market);
    if ValueSide(kind, side, e1, market).None? {
      var i :| 0 <= i < |e1| && EntryValue(kind, side, e1[i], market).None?;
      assert e1[i] in e2;
    }
  }

  lemma SameValuesForSameEntries<R>(kind: AuctionType, side: Side, e1: seq<Entry>, e2: seq<Entry>, market: Market<R>)
    requires DistinctAssets(e1) && DistinctAssets(e2)
    requires forall e :: e in e1 <==> e in e2
    requires ValueSide(kind, side, e1, market).Some? && ValueSide(kind, side, e2, market).Some?
    ensures ValueSide(kind, side, e1, market).value.values == ValueSide(kind, side, e2, market).value.values
  {
    ValueSideKeys(kind, side, e1, market);
    ValueSideKeys(kind, side, e2, market);
    ValueSideValues(kind, side, e1, market);
    ValueSideValues(kind, side, e2, market);
    var v1 := ValueSide(kind, side, e1, market).value.values;
    var v2 := ValueSide(kind, side, e2, market).value.values;
    forall a | a in Assets(e1) ensures a in Assets(e2) && v1[a] == v2[a] {
      var i :| 0 <= i < |e1| && e1[i].asset == a;
      assert e1[i] in e2;
      var j :| 0 <= j < |e2| && e2[j] == e1[i];
    }
    forall a | a in Assets(e2) ensures a in Assets(e1) {
      var j :| 0 <= j < |e2| && e2[j].asset == a;
      assert e2[j] in e1;
      var i :| 0 <= i < |e1| && e1[i] == e2[j];
    }
  }

  /** `calculateAuctionOracleProfit` in its imperative form: a loop over the
      lot then one over the bid, switching on the auction type per entry and
      returning unavailable at the first missing reserve or price. It computes
      exactly the fold `OracleProfitOf`. */
  method CalculateAuctionOracleProfit<R>(auction: AuctionData, kind: AuctionType, market: Market<R>)
    returns (r: Option<OracleProfit>)
    ensures r == OracleProfitOf(auction, kind, market)
  {
    var lot: map<string, real> := map[];
    var bid: map<string, real> := map[];
    var totalLotValue := 0.0;
    var totalBidValue := 0.0;

    var i := 0;
    while i < |auction.lot|
      invariant 0 <= i <= |auction.lot|
      invariant ValueSide(kind, Lot, auction.lot[..i], market) == Some(Valuation(lot, totalLotValue))
    {
      var e := auction.lot[i];
      var lotValue: real;
      if kind == BadDebt {
        lotValue := LpValue(e, market);
      } else if e.asset !in market.reserves || e.asset !in market.prices {
        ValueSideFailsIff(kind, Lot, auction.lot, market);
        assert EntryValue(kind, Lot, auction.lot[i], market).None?;
        return None;
      } else {
        lotValue := OracleValue(e, market);
      }
      assert EntryValue(kind, Lot, e, market) == Some(lotValue);
      assert auction.lot[..i + 1][..i] == auction.lot[..i];
      assert auction.lot[..i + 1][i] == e;
      lot := lot[e.asset := lotValue];
      totalLotValue := totalLotValue + lotValue;
      i := i + 1;
    }
    assert auction.lot[..i] == auction.lot;

    var j := 0;
    while j < |auction.bid|
      invariant 0 <= j <= |auction.bid|
      invariant ValueSide(kind, Bid, auction.bid[..j], market) == Some(Valuation(bid, totalBidValue))
    {
      var e := auction.bid[j];
      var bidValue: real;
      if kind == Interest {
        bidValue := LpValue(e, market);
      } else if e.asset !in market.reserves || e.asset !in market.prices {
        ValueSideFailsIff(kind, Bid, auction.bid, market);
        assert EntryValue(kind, Bid, auction.bid[j], market).None?;
        return None;
      } else {
        bidValue := OracleValue(e, market);
      }
      assert EntryValue(kind, Bid, e, market) == Some(bidValue);
      assert auction.bid[..j + 1][..j] == auction.bid[..j];
      assert auction.bid[..j + 1][j] == e;
      bid := bid[e.asset := bidValue];
      totalBidValue := totalBidValue + bidValue;
      j := j + 1;
    }
    assert auction.bid[..j] == auction.bid;

    r := Some(OracleProfit(lot, bid, totalLotValue, totalBidValue));
  }

  /** The whole valuation is unavailable exactly when some lot or bid entry
      valued through the pool lacks its reserve or its oracle price; there is
      never a partial result. */
  lemma OracleProfitAllOrNothing<R>(auction: AuctionData, kind: AuctionType, market: Market<R>)
    ensures OracleProfitOf(auction, kind, market).None? <==>
      ((exists i :: 0 <= i < |auction.lot| && MissingData(kind, Lot, auction.lot[i], market))
       || (exists i :: 0 <= i < |auction.bid| && MissingData(kind, Bid, auction.bid[i], market)))
  {
    ValueSideFailsIff(kind, Lot, auction.lot, market);
    ValueSideFailsIff(kind, Bid, auction.bid, market);
  }

  /** An entry valued through the pool whose reserve or price is absent. */
  predicate MissingData<R>(kind: AuctionType, side: Side, e: Entry, market: Market<R>) {
    !PricedInLpTokens(kind, side) && (e.asset !in market.reserves || e.asset !in market.prices)
  }

  /** On success the output maps are keyed by exactly the auction's lot and
      bid assets and each total is the sum of its map's values. */
  lemma OracleProfitOnSuccess<R>(auction: AuctionData, kind: AuctionType, market: Market<R>)
    requires DistinctAssets(auction.lot) && DistinctAssets(auction.bid)
    requires OracleProfitOf(auction, kind, market).Some?
    ensures var p := OracleProfitOf(auction, kind, market).value;
      && p.lot.Keys == Assets(auction.lot)
      && p.bid.Keys == Assets(auction.bid)
      && p.totalLotValue == MapSum(p.lot)
      && p.totalBidValue == MapSum(p.bid)
  {
    ValueSideKeys(kind, Lot, auction.lot, market);
    ValueSideKeys(kind, Bid, auction.bid, market);
    ValueSideTotal(kind, Lot, auction.lot, market);
    ValueSideTotal(kind, Bid, auction.bid, market);
  }

  /** On success every entry's value is its amount in whole LP tokens times the
      LP token price on the side the auction type prices in LP tokens, and its
      reserve's asset amount times the oracle price on the other side. */
  lemma OracleProfitEntryValues<R>(auction: AuctionData, kind: AuctionType, market: Market<R>)
    requires DistinctAssets(auction.lot) && DistinctAssets(auction.bid)
    requires OracleProfitOf(auction, kind, market).Some?
    ensures var p := OracleProfitOf(auction, kind, market).value;
      && (forall i :: 0 <= i < |auction.lot| ==>
            EntryValued(kind, Lot, auction.lot[i], market, p.lot))
      && (forall i :: 0 <= i < |auction.bid| ==>
            EntryValued(kind, Bid, auction.bid[i], market, p.bid))
  {
    ValueSideValues(kind, Lot, auction.lot, market);
    ValueSideValues(kind, Bid, auction.bid, market);
  }

  /** The entry's asset holds the value its side's pricing rule gives. */
  predicate EntryValued<R>(kind: AuctionType, side: Side, e: Entry, market: Market<R>, values: map<string, real>) {
    && e.asset in values
    && if PricedInLpTokens(kind, side) then
         values[e.asset] == ToFloat7(e.amount) * market.backstopToken.lpTokenPrice
       else
         && e.asset in market.reserves && e.asset in market.prices
         && values[e.asset] == market.toAsset(market.reserves[e.asset], e.amount) * market.prices[e.asset]
  }

  /** LP-token-priced entries never look anything up, so they never fail: a
      bad-debt valuation is available exactly when its bid side is, and an
      interest valuation exactly when its lot side is. */
  lemma LpPricedSideNeverFails<R>(auction: AuctionData, market: Market<R>)
    ensures OracleProfitOf(auction, BadDebt, market).None? <==> ValueSide(BadDebt, Bid, auction.bid, market).None?
    ensures OracleProfitOf(auction, Interest, market).None? <==> ValueSide(Interest, Lot, auction.lot, market).None?
  {
    ValueSideFailsIff(BadDebt, Lot, auction.lot, market);
    ValueSideFailsIff(Interest, Bid, auction.bid, market);
  }

  /** Reordering the entries of the lot or bid Map changes nothing. */
  lemma OracleProfitOrderIndependent<R>(a1: AuctionData, a2: AuctionData, kind: AuctionType, market: Market<R>)
    requires DistinctAssets(a1.lot) && DistinctAssets(a2.lot)
    requires DistinctAssets(a1.bid) && DistinctAssets(a2.bid)
    requires forall e :: e in a1.lot <==> e in a2.lot
    requires forall e :: e in a1.bid <==> e in a2.bid
    ensures OracleProfitOf(a1, kind, market) == OracleProfitOf(a2, kind, market)
  {
    ValueSideOrderIndependent(kind, Lot, a1.lot, a2.lot, market);
    ValueSideOrderIndependent(kind, Bid, a1.bid, a2.bid, market);
  }

  /** A bad-debt lot of one LP token at an LP token price of 2.5 is worth 2.5,
      with no reserve or price available at all. */
  lemma BadDebtExample(toAsset: (int, int) -> real)
    ensures OracleProfitOf(AuctionData([Entry("X", 10000000)], []), BadDebt, Market(map[], map[], BackstopToken(0, 0, 0, 2.5), toAsset))
         == Some(OracleProfit(map["X" := 2.5], map[], 2.5, 0.0))
  {
    var entries := [Entry("X", 10000000)];
    assert entries[..0] == [];
  }
}

=== FILE: backstop.dfy ===
/**
 * The backstop data the front-end reads from the protocol SDK, shared by the
 * estimators, the auction valuation, the mint form and the layout.
 */
module Backstop {
  /** The Comet pool snapshot (`BackstopToken`): LP shares outstanding and
      the two token balances, all 7-decimal fixed point, and the LP token's
      USD price. */
  datatype BackstopToken = BackstopToken(shares: int, blnd: int, usdc: int, lpTokenPrice: real)

  /** The backstop contract's `config`: the BLND, USDC and LP token
      addresses, and the reward zone's pools, newest first. */
  datatype BackstopConfig = BackstopConfig(
    blndTkn: string,
    usdcTkn: string,
    backstopTkn: string,
    rewardZone: seq<string>)
}

=== FILE: backstop_mint.dfy ===
/**
 * Input validation of the backstop mint form
 * (src/components/backstop/BackstopMintAnvil.tsx): a first-match chain of
 * guards over the wallet balance, the typed amount and the Comet pool's token
 * balances, the guard that decides whether to request an LP estimate when the
 * amount changes, and the BLND/USDC deposit-token toggle.
 */
module BackstopMint {
  import opened Wrappers
  import opened Backstop

  /** BLND and USDC both have 7 decimals; the form refuses finer amounts. */
  const Decimals: nat := 7

  datatype DepositToken = DepositToken(address: Option<string>, symbol: string)

  datatype DisabledType = Warning | Info

  /** The message shown under the form; `OverHalfPool` carries the largest
      amount the pool accepts, which the message renders. */
  datatype Reason =
    | NoBalance
    | EnterAmount
    | TooManyDecimals
    | InsufficientBalance
    | OverHalfPool(maxDeposit: int)
    | LoadingEstimate

  datatype SubmitError = SubmitError(
    isSubmitDisabled: bool,
    isMaxDisabled: bool,
    reason: Option<Reason>,
    disabledType: Option<DisabledType>)

  /** The component state the validation reads. `blndAddress` and
      `usdcAddress` are the configured token addresses, or "" before the
      backstop is loaded; `poolBlnd` and `poolUsdc` are the Comet pool's token
      balances once loaded; `toMint` is the last LP estimate (0 when none). */
  datatype MintForm = MintForm(
    token: DepositToken,
    balances: map<string, int>,
    toSwap: string,
    blndAddress: string,
    usdcAddress: string,
    poolBlnd: Option<int>,
    poolUsdc: Option<int>,
    toMint: real,
    loadingEstimate: bool)

  /** What a change of the typed amount does to the estimate. */
  datatype SwapEffect = NoEffect | ResetEstimate | RequestEstimate(amount: int)

  /** `String.prototype.indexOf` for one character. */
  function IndexOf(s: string, c: char): (r: Option<nat>)
    ensures r.Some? ==> r.value < |s| && s[r.value] == c
    ensures r.Some? ==> forall j :: 0 <= j < r.value ==> s[j] != c
    ensures r.None? ==> forall j :: 0 <= j < |s| ==> s[j] != c
  {
    if |s| == 0 then None
    else if s[0] == c then Some(0)
    else
      match IndexOf(s[1..], c)
      case None => None
      case Some(i) => Some(i + 1)
  }

  /** The length of `s.split('.')[1]`: the text between the first point and
      the next one, or None when `s` has no point. */
  function FractionDigits(s: string): (r: Option<nat>)
    ensures r.None? <==> '.' !in s
    ensures r.Some? ==> IndexOf(s, '.').Some?
    ensures r.Some? ==>
      var start := IndexOf(s, '.').value + 1;
      && start + r.value <= |s|
      && (forall j :: start <= j < start + r.value ==> s[j] != '.')
      && (start + r.value == |s| || s[start + r.value] == '.')
  {
    match IndexOf(s, '.')
    case None => None
    case Some(i) =>
      var rest := s[i + 1..];
      assert forall k :: 0 <= k < |rest| ==> rest[k] == s[i + 1 + k];
      match IndexOf(rest, '.')
      case None => Some(|rest|)
      case Some(j) => Some(j)
  }

  /** A whole part and a fraction joined by one point have the fraction's
      length as their fraction digits. */
  lemma FractionDigitsOfDecimal(whole: string, fraction: string)
    requires '.' !in whole && '.' !in fraction
    ensures FractionDigits(whole + "." + fraction) == Some(|fraction|)
  {
    var s := whole + "." + fraction;
    assert s[|whole|] == '.';
    assert IndexOf(s, '.') == Some(|whole|) by {
      assert forall j :: 0 <= j < |whole| ==> s[j] == whole[j];
    }
    assert s[|whole| + 1..] == fraction;
  }

  /** `value.split('.')[1]?.length > decimals`. */
  predicate HasTooManyDecimals(value: string) {
    match FractionDigits(value)
    case None => false
    case Some(n) => n > Decimals
  }

  /** `balancesByAddress.get(address ?? '') || 0`. */
  function WalletBalance(form: MintForm): int {
    var key := form.token.address.GetOr("");
    if key in form.balances then form.balances[key] else 0
  }

  /** `poolBalance / BigInt(2) - BigInt(1)`, with BigInt division truncating
      toward zero: half the pool balance rounded toward zero, minus one. */
  function HalfPoolCap(poolBalance: int): (cap: int)
    ensures poolBalance >= 0 ==> 2 * (cap + 1) <= poolBalance <= 2 * (cap + 1) + 1
    ensures poolBalance < 0 ==> 2 * (cap + 1) - 1 <= poolBalance <= 2 * (cap + 1)
  {
    var half := if poolBalance >= 0 then poolBalance / 2 else -((-poolBalance) / 2);
    half - 1
  }

  /** `!!poolBalance && amount > poolBalance / 2n - 1n`: the cap applies only
      once the pool balance is known and non-zero. */
  predicate ExceedsCap(amount: int, poolBalance: Option<int>) {
    poolBalance.Some? && poolBalance.value != 0 && amount > HalfPoolCap(poolBalance.value)
  }

  /** The deposit token's own pool cap is exceeded. */
  predicate DepositCapHit(form: MintForm, amount: int) {
    || (form.token.address == Some(form.blndAddress) && ExceedsCap(amount, form.poolBlnd))
    || (form.token.address == Some(form.usdcAddress) && ExceedsCap(amount, form.poolUsdc))
  }

  /** The guards before the cap pass: a positive balance, and an amount typed
      with at most 7 decimals and no more than the balance. */
  predicate AmountGuardsPass(form: MintForm, scale: string -> int) {
    && WalletBalance(form) > 0
    && form.toSwap != ""
    && !HasTooManyDecimals(form.toSwap)
    && scale(form.toSwap) <= WalletBalance(form)
  }

  /** Every input guard passes, the pool cap included. */
  predicate InputAccepted(form: MintForm, scale: string -> int) {
    AmountGuardsPass(form, scale) && !DepositCapHit(form, scale(form.toSwap))
  }

  /** The `useMemo` validation chain; `scale` is `scaleInputToBigInt(_, 7)`. */
  function Validate(form: MintForm, scale: string -> int): (r: SubmitError)
    ensures !r.isSubmitDisabled <==> InputAccepted(form, scale) && form.toMint != 0.0 && !form.loadingEstimate
    ensures r.isMaxDisabled <==>
      WalletBalance(form) <= 0 || (AmountGuardsPass(form, scale) && DepositCapHit(form, scale(form.toSwap)))
    ensures r.isMaxDisabled ==> r.isSubmitDisabled
    ensures r.reason.None? <==> !r.isSubmitDisabled
    ensures r.disabledType.None? <==> r.reason.None?
    ensures r.disabledType == Some(Info) <==> r.reason == Some(EnterAmount) || r.reason == Some(LoadingEstimate)
    ensures r.reason.Some? && r.reason.value.OverHalfPool? <==>
      AmountGuardsPass(form, scale) && DepositCapHit(form, scale(form.toSwap))
    ensures r.reason.Some? && r.reason.value.OverHalfPool? ==>
      scale(form.toSwap) > r.reason.value.maxDeposit
  {
    var balance := WalletBalance(form);
    if balance <= 0 then
      SubmitError(true, true, Some(NoBalance), Some(Warning))
    else if form.toSwap == "" then
      SubmitError(true, false, Some(EnterAmount), Some(Info))
    else if HasTooManyDecimals(form.toSwap) then
      SubmitError(true, false, Some(TooManyDecimals), Some(Warning))
    else if scale(form.toSwap) > balance then
      SubmitError(true, false, Some(InsufficientBalance), Some(Warning))
    else if form.token.address == Some(form.blndAddress) && ExceedsCap(scale(form.toSwap), form.poolBlnd) then
      SubmitError(true, true, Some(OverHalfPool(HalfPoolCap(form.poolBlnd.value))), Some(Warning))
    else if form.token.address == Some(form.usdcAddress) && ExceedsCap(scale(form.toSwap), form.poolUsdc) then
      SubmitError(true, true, Some(OverHalfPool(HalfPoolCap(form.poolUsdc.value))), Some(Warning))
    else if form.toMint == 0.0 || form.loadingEstimate then
      SubmitError(true, false, Some(LoadingEstimate), Some(Info))
    else
      SubmitError(false, false, None, None)
  }

  /** First match wins: each guard's reason is reported whatever the later
      guards would say. */
  lemma ValidationPriority(form: MintForm, scale: string -> int)
    ensures WalletBalance(form) <= 0 ==> Validate(form, scale).reason == Some(NoBalance)
    ensures WalletBalance(form) > 0 && form.toSwap == "" ==>
      Validate(form, scale) == SubmitError(true, false, Some(EnterAmount), Some(Info))
    ensures WalletBalance(form) > 0 && form.toSwap != "" && HasTooManyDecimals(form.toSwap) ==>
      Validate(form, scale) == SubmitError(true, false, Some(TooManyDecimals), Some(Warning))
    ensures WalletBalance(form) > 0 && form.toSwap != "" && !HasTooManyDecimals(form.toSwap)
            && scale(form.toSwap) > WalletBalance(form) ==>
      Validate(form, scale) == SubmitError(true, false, Some(InsufficientBalance), Some(Warning))
    ensures AmountGuardsPass(form, scale)
            && form.token.address == Some(form.blndAddress) && ExceedsCap(scale(form.toSwap), form.poolBlnd) ==>
      Validate(form, scale) == SubmitError(true, true, Some(OverHalfPool(HalfPoolCap(form.poolBlnd.value))), Some(Warning))
    ensures AmountGuardsPass(form, scale)
            && !(form.token.address == Some(form.blndAddress) && ExceedsCap(scale(form.toSwap), form.poolBlnd))
            && form.token.address == Some(form.usdcAddress) && ExceedsCap(scale(form.toSwap), form.poolUsdc) ==>
      Validate(form, scale) == SubmitError(true, true, Some(OverHalfPool(HalfPoolCap(form.poolUsdc.value))), Some(Warning))
    ensures InputAccepted(form, scale) && (form.toMint == 0.0 || form.loadingEstimate) ==>
      Validate(form, scale) == SubmitError(true, false, Some(LoadingEstimate), Some(Info))
    ensures InputAccepted(form, scale) && form.toMint != 0.0 && !form.loadingEstimate ==>
      Validate(form, scale) == SubmitError(false, false, None, None)
  {
  }

  /** Without a known, non-zero pool balance there is no half-pool cap. */
  lemma CapNeedsKnownPool(form: MintForm, scale: string -> int)
    requires form.poolBlnd.None? || form.poolBlnd == Some(0)
    requires form.poolUsdc.None? || form.poolUsdc == Some(0)
    ensures !(Validate(form, scale).reason.Some? && Validate(form, scale).reason.value.OverHalfPool?)
  {
  }

  /** `currentDepositToken.address` is truthy: set and non-empty. */
  predicate TokenSelected(form: MintForm) {
    form.token.address.Some? && form.token.address.value != ""
  }

  /** `handleSwapChange` as written: the amount is compared with BOTH pools'
      half-balance caps, whichever token is being deposited. */
  function SwapChangeAsWritten(form: MintForm, value: string, scale: string -> int): (e: SwapEffect)
    ensures e == ResetEstimate <==>
      && TokenSelected(form) && !HasTooManyDecimals(value)
      && (ExceedsCap(scale(value), form.poolUsdc) || ExceedsCap(scale(value), form.poolBlnd))
    ensures e.RequestEstimate? <==>
      && TokenSelected(form) && !HasTooManyDecimals(value)
      && !ExceedsCap(scale(value), form.poolUsdc) && !ExceedsCap(scale(value), form.poolBlnd)
      && scale(value) <= WalletBalance(form)
    ensures e.RequestEstimate? ==> e.amount == scale(value)
  {
    if !TokenSelected(form) || HasTooManyDecimals(value) then
      NoEffect
    else
      var amount := scale(value);
      if ExceedsCap(amount, form.poolUsdc) || ExceedsCap(amount, form.poolBlnd) then
        ResetEstimate
      else if amount <= WalletBalance(form) then
        RequestEstimate(amount)
      else
        NoEffect
  }

  /** `handleSwapChange` with the deposit token's own cap only, the cap the
      validation applies. */
  function SwapChange(form: MintForm, value: string, scale: string -> int): (e: SwapEffect)
    ensures e == ResetEstimate <==>
      TokenSelected(form) && !HasTooManyDecimals(value) && DepositCapHit(form, scale(value))
    ensures e.RequestEstimate? <==>
      && TokenSelected(form) && !HasTooManyDecimals(value)
      && !DepositCapHit(form, scale(value)) && scale(value) <= WalletBalance(form)
    ensures e.RequestEstimate? ==> e.amount == scale(value)
  {
    if !TokenSelected(form) || HasTooManyDecimals(value) then
      NoEffect
    else
      var amount := scale(value);
      if DepositCapHit(form, amount) then
        ResetEstimate
      else if amount <= WalletBalance(form) then
        RequestEstimate(amount)
      else
        NoEffect
  }

  /** The handler as written resets whenever the corrected one does, and
      requests an estimate only when the corrected one does. */
  lemma SwapChangeAsWrittenResetsMore(form: MintForm, value: string, scale: string -> int)
    ensures SwapChange(form, value, scale) == ResetEstimate ==> SwapChangeAsWritten(form, value, scale) == ResetEstimate
    ensures SwapChangeAsWritten(form, value, scale).RequestEstimate? ==>
      SwapChangeAsWritten(form, value, scale) == SwapChange(form, value, scale)
  {
  }

  /** For a selected token with a balance and a typed amount, an estimate is
      requested exactly when the validation accepts the input, so the form
      never waits on an estimate that was not asked for. */
  lemma SwapChangeAgreesWithValidation(form: MintForm, scale: string -> int)
    requires TokenSelected(form)
    requires WalletBalance(form) > 0 && form.toSwap != ""
    ensures SwapChange(form, form.toSwap, scale).RequestEstimate? <==> InputAccepted(form, scale)
  {
  }

  /** Depositing 200 units of BLND into a pool holding 1000 BLND and 100 USDC
      passes every input guard, yet the as-written swap handler resets the
      estimate because 200 exceeds the USDC cap of 49; the form then stays at
      "Loading estimate...". */
  lemma SwapChangeAsWrittenBlocksValidBlndDeposit()
    ensures var form := MintForm(DepositToken(Some("B"), "BLND"), map["B" := 300], "200", "B", "U",
                                 Some(1000), Some(100), 0.0, false);
      && InputAccepted(form, _ => 200)
      && Validate(form, _ => 200).reason == Some(LoadingEstimate)
      && SwapChangeAsWritten(form, form.toSwap, _ => 200) == ResetEstimate
      && SwapChange(form, form.toSwap, _ => 200) == RequestEstimate(200)
  {
    var form := MintForm(DepositToken(Some("B"), "BLND"), map["B" := 300], "200", "B", "U",
                         Some(1000), Some(100), 0.0, false);
    assert FractionDigits("200").None?;
    assert HalfPoolCap(1000) == 499;
    assert HalfPoolCap(100) == 49;
    assert Some("B") != Some("U");
  }

  /** `handleSwitchDepositToken`: USDC switches to BLND and anything else to
      USDC, taking the address from the backstop config when it is loaded. */
  function SwitchDepositToken(current: DepositToken, config: Option<BackstopConfig>): (next: DepositToken)
    ensures next.symbol == "BLND" <==> current.symbol == "USDC"
    ensures next.symbol == "BLND" || next.symbol == "USDC"
    ensures config.None? ==> next.address.None?
    ensures config.Some? && next.symbol == "BLND" ==> next.address == Some(config.value.blndTkn)
    ensures config.Some? && next.symbol == "USDC" ==> next.address == Some(config.value.usdcTkn)
  {
    var blnd := if config.Some? then Some(config.value.blndTkn) else None;
    var usdc := if config.Some? then Some(config.value.usdcTkn) else None;
    if current.symbol == "USDC" then DepositToken(blnd, "BLND") else DepositToken(usdc, "USDC")
  }

  /** Switching twice from USDC comes back to USDC. */
  lemma SwitchTwiceFromUsdc(current: DepositToken, config: Option<BackstopConfig>)
    requires current.symbol == "USDC"
    ensures SwitchDepositToken(SwitchDepositToken(current, config), config).symbol == "USDC"
  {
  }

  /** On the tokens it produces, the toggle is its own inverse. */
  lemma SwitchIsInvolution(current: DepositToken, config: Option<BackstopConfig>)
    ensures var next := SwitchDepositToken(current, config);
      SwitchDepositToken(SwitchDepositToken(next, config), config) == next
  {
  }
}

=== FILE: comet.dfy ===
/**
 * Estimators for the Comet 80/20 BLND/USDC weighted pool whose LP token backs
 * the protocol's backstop (src/utils/comet.ts). JavaScript numbers are
 * modelled as exact reals, so the formulas hold without rounding; the one
 * real-exponent power `ratio ** weight` is a parameter `pow`.
 */
module Comet {
  import opened FixedMath
  import opened Backstop

  /** Token amounts, in whole tokens, quoted for a join or an exit. */
  datatype TokenAmounts = TokenAmounts(blnd: real, usdc: real)

  datatype Token = Blnd | Usdc

  const BlndWeight: real := 0.8
  const UsdcWeight: real := 0.2
  const SwapFee: real := 0.03

  /** Pool weight of the deposited token. */
  function Weight(token: Token): (w: real)
    ensures 0.0 < w < 1.0
    ensures token == Blnd ==> w == 0.8
    ensures token == Usdc ==> w == 0.2
  {
    if token == Blnd then BlndWeight else UsdcWeight
  }

  /** The swap fee charged on the part of a single-sided deposit that is
      implicitly swapped into the other token. */
  function WeightedFee(token: Token): (f: real)
    ensures f == (1.0 - Weight(token)) * SwapFee
    ensures token == Blnd ==> f == 0.006
    ensures token == Usdc ==> f == 0.024
  {
    (1.0 - Weight(token)) * SwapFee
  }

  function Balance(pool: BackstopToken, token: Token): int {
    if token == Blnd then pool.blnd else pool.usdc
  }

  /** `estJoinPool`: the BLND and USDC a caller must supply to mint `toMint`
      shares, inflated by the slippage tolerance. */
  function EstJoinPool(pool: BackstopToken, toMint: int, maxSlippage: real): (r: TokenAmounts)
    requires pool.shares != 0
    ensures r.blnd == ToFloat7(pool.blnd) * (toMint as real / pool.shares as real) * (1.0 + maxSlippage)
    ensures r.usdc == ToFloat7(pool.usdc) * (toMint as real / pool.shares as real) * (1.0 + maxSlippage)
  {
    var ratio := (pool.shares + toMint) as real / pool.shares as real - 1.0;
    assert ratio == toMint as real / pool.shares as real;
    TokenAmounts(ToFloat7(pool.blnd) * ratio * (1.0 + maxSlippage),
                 ToFloat7(pool.usdc) * ratio * (1.0 + maxSlippage))
  }

  /** `estExitPool`: the BLND and USDC returned for burning `toBurn` shares,
      deflated by the slippage tolerance. */
  function EstExitPool(pool: BackstopToken, toBurn: int, maxSlippage: real): (r: TokenAmounts)
    requires pool.shares != 0
    ensures r.blnd == ToFloat7(pool.blnd) * (toBurn as real / pool.shares as real) * (1.0 - maxSlippage)
    ensures r.usdc == ToFloat7(pool.usdc) * (toBurn as real / pool.shares as real) * (1.0 - maxSlippage)
  {
    var ratio := 1.0 - (pool.shares - toBurn) as real / pool.shares as real;
    assert ratio == toBurn as real / pool.shares as real;
    TokenAmounts(ToFloat7(pool.blnd) * ratio * (1.0 - maxSlippage),
                 ToFloat7(pool.usdc) * ratio * (1.0 - maxSlippage))
  }

  function Min(a: real, b: real): real {
    if a <= b then a else b
  }

  /** The LP shares, in whole tokens, that `amount` raw units of a token worth
      `balance` raw units in the pool buy in a proportional join. */
  function JoinAmount(amount: int, balance: int, shares: int, maxSlippage: real): real
    requires balance != 0
  {
    var netSlippage := ToFloat7(amount) * (1.0 - maxSlippage);
    var ratio := netSlippage / ToFloat7(balance);
    ratio * ToFloat7(shares)
  }

  /** `estLPTokenViaJoin`: the shares a join funded by at most `blnd` and
      `usdc` can mint; whichever token runs out first binds. */
  function EstLPTokenViaJoin(pool: BackstopToken, blnd: int, usdc: int, maxSlippage: real): (r: real)
    requires pool.blnd != 0 && pool.usdc != 0
    ensures r <= ToFloat7(pool.shares) * (blnd as real * (1.0 - maxSlippage) / pool.blnd as real)
    ensures r <= ToFloat7(pool.shares) * (usdc as real * (1.0 - maxSlippage) / pool.usdc as real)
    ensures r == ToFloat7(pool.shares) * (blnd as real * (1.0 - maxSlippage) / pool.blnd as real)
         || r == ToFloat7(pool.shares) * (usdc as real * (1.0 - maxSlippage) / pool.usdc as real)
  {
    JoinAmountSimplified(blnd, pool.blnd, pool.shares, maxSlippage);
    JoinAmountSimplified(usdc, pool.usdc, pool.shares, maxSlippage);
    Min(JoinAmount(blnd, pool.blnd, pool.shares, maxSlippage),
        JoinAmount(usdc, pool.usdc, pool.shares, maxSlippage))
  }

  /** The two 1e7 scalings of a join amount cancel. */
  lemma JoinAmountSimplified(amount: int, balance: int, shares: int, maxSlippage: real)
    requires balance != 0
    ensures JoinAmount(amount, balance, shares, maxSlippage)
         == ToFloat7(shares) * (amount as real * (1.0 - maxSlippage) / balance as real)
  {
    var a := amount as real;
    var b := balance as real;
    assert ToFloat7(amount) == a / 10000000.0;
    assert ToFloat7(balance) == b / 10000000.0;
    assert (a / 10000000.0 * (1.0 - maxSlippage)) / (b / 10000000.0) == a * (1.0 - maxSlippage) / b;
  }

  /** `estSingleSidedDeposit`: shares minted for depositing `amount` of one
      token alone, by the weighted-pool bonding curve. */
  function EstSingleSidedDeposit(token: Token, pool: BackstopToken, amount: int, pow: (real, real) -> real): (r: real)
    requires Balance(pool, token) != 0
    ensures r == ToFloat7(pool.shares)
              * (pow(1.0 + amount as real * (1.0 - WeightedFee(token)) / Balance(pool, token) as real, Weight(token)) - 1.0)
    ensures amount == 0 && pow(1.0, Weight(token)) == 1.0 ==> r == 0.0
  {
    DepositRatioSimplified(token, pool, amount);
    var weightedRatio := pow(DepositRatio(token, pool, amount), Weight(token)) - 1.0;
    ToFloat7(pool.shares) * weightedRatio
  }

  /** A join asks for BLND and USDC in exactly the pool's own proportion,
      whatever the slippage tolerance. */
  lemma JoinKeepsPoolRatio(pool: BackstopToken, toMint: int, maxSlippage: real)
    requires pool.shares != 0
    ensures EstJoinPool(pool, toMint, maxSlippage).blnd * ToFloat7(pool.usdc)
         == EstJoinPool(pool, toMint, maxSlippage).usdc * ToFloat7(pool.blnd)
  {
    var k := (toMint as real / pool.shares as real) * (1.0 + maxSlippage);
    var r := EstJoinPool(pool, toMint, maxSlippage);
    assert r.blnd == ToFloat7(pool.blnd) * k;
    assert r.usdc == ToFloat7(pool.usdc) * k;
  }

  /** A larger slippage tolerance never lowers the join quote. */
  lemma JoinMonotoneInSlippage(pool: BackstopToken, toMint: int, s1: real, s2: real)
    requires pool.shares > 0 && pool.blnd >= 0 && pool.usdc >= 0 && toMint >= 0
    requires s1 <= s2
    ensures EstJoinPool(pool, toMint, s1).blnd <= EstJoinPool(pool, toMint, s2).blnd
    ensures EstJoinPool(pool, toMint, s1).usdc <= EstJoinPool(pool, toMint, s2).usdc
  {
    var q := toMint as real / pool.shares as real;
    assert q >= 0.0;
    var b := ToFloat7(pool.blnd) * q;
    var u := ToFloat7(pool.usdc) * q;
    assert b >= 0.0 && u >= 0.0;
    assert b * (1.0 + s1) <= b * (1.0 + s2);
    assert u * (1.0 + s1) <= u * (1.0 + s2);
  }

  /** Burning every share without slippage returns the pool's full balances. */
  lemma ExitAllShares(pool: BackstopToken)
    requires pool.shares != 0
    ensures EstExitPool(pool, pool.shares, 0.0) == TokenAmounts(ToFloat7(pool.blnd), ToFloat7(pool.usdc))
  {
    assert pool.shares as real / pool.shares as real == 1.0;
  }

  /** Without slippage, minting and burning the same number of shares are
      quoted the same token amounts: exit is the inverse of join. */
  lemma JoinExitSymmetric(pool: BackstopToken, shares: int)
    requires pool.shares != 0
    ensures EstJoinPool(pool, shares, 0.0) == EstExitPool(pool, shares, 0.0)
  {
  }

  /** With a non-negative tolerance, an exit never returns more than the
      matching join asks for. */
  lemma ExitNeverExceedsJoin(pool: BackstopToken, shares: int, maxSlippage: real)
    requires pool.shares > 0 && pool.blnd >= 0 && pool.usdc >= 0 && shares >= 0
    requires maxSlippage >= 0.0
    ensures EstExitPool(pool, shares, maxSlippage).blnd <= EstJoinPool(pool, shares, maxSlippage).blnd
    ensures EstExitPool(pool, shares, maxSlippage).usdc <= EstJoinPool(pool, shares, maxSlippage).usdc
  {
    var q := shares as real / pool.shares as real;
    assert q >= 0.0;
    var b := ToFloat7(pool.blnd) * q;
    var u := ToFloat7(pool.usdc) * q;
    assert b >= 0.0 && u >= 0.0;
    assert b * (1.0 - maxSlippage) <= b * (1.0 + maxSlippage);
    assert u * (1.0 - maxSlippage) <= u * (1.0 + maxSlippage);
  }

  /** Minting 100 of 1000 shares of a pool holding 800 BLND and 200 USDC
      takes 80 BLND and 20 USDC. */
  lemma JoinExample()
    ensures EstJoinPool(BackstopToken(1000, 8000000000, 2000000000, 0.0), 100, 0.0)
         == TokenAmounts(80.0, 20.0)
  {
  }

  /** Supplying raw BLND and USDC in exact proportion `toMint / shares` to the
      pool's balances, without slippage, buys exactly `toMint` shares: the
      dual-token estimate inverts the symmetric join. */
  lemma LPViaJoinProportional(pool: BackstopToken, toMint: int, blnd: int, usdc: int)
    requires pool.shares != 0 && pool.blnd != 0 && pool.usdc != 0
    requires blnd * pool.shares == toMint * pool.blnd
    requires usdc * pool.shares == toMint * pool.usdc
    ensures EstLPTokenViaJoin(pool, blnd, usdc, 0.0) == ToFloat7(toMint)
  {
    ProportionalJoinAmount(blnd, pool.blnd, pool.shares, toMint);
    ProportionalJoinAmount(usdc, pool.usdc, pool.shares, toMint);
  }

  lemma ProportionalJoinAmount(amount: int, balance: int, shares: int, toMint: int)
    requires balance != 0 && shares != 0
    requires amount * shares == toMint * balance
    ensures ToFloat7(shares) * (amount as real * (1.0 - 0.0) / balance as real) == ToFloat7(toMint)
  {
    var a := amount as real;
    var b := balance as real;
    var s := shares as real;
    assert a * s == toMint as real * b;
    assert a / b * s == toMint as real;
    assert ToFloat7(shares) == s / 10000000.0;
    assert ToFloat7(toMint) == toMint as real / 10000000.0;
    assert s / 10000000.0 * (a / b) == (a / b * s) / 10000000.0;
  }

  /** Depositing nothing moves the ratio to exactly 1 and so mints no shares,
      for any power function with `pow(1, w) == 1`. */
  lemma SingleSidedZeroDeposit(token: Token, pool: BackstopToken, pow: (real, real) -> real)
    requires Balance(pool, token) != 0
    requires pow(1.0, Weight(token)) == 1.0
    ensures EstSingleSidedDeposit(token, pool, 0, pow) == 0.0
  {
  }

  /** With a pool of positive shares and balance and a power function that
      is non-decreasing in its base, depositing more never mints fewer shares. */
  lemma SingleSidedMonotone(token: Token, pool: BackstopToken, a1: int, a2: int, pow: (real, real) -> real)
    requires Balance(pool, token) > 0 && pool.shares > 0
    requires 0 <= a1 <= a2
    requires forall x, y :: 0.0 < x <= y ==> pow(x, Weight(token)) <= pow(y, Weight(token))
    ensures EstSingleSidedDeposit(token, pool, a1, pow) <= EstSingleSidedDeposit(token, pool, a2, pow)
  {
    var r1 := DepositRatio(token, pool, a1);
    var r2 := DepositRatio(token, pool, a2);
    DepositRatioMonotone(token, pool, a1, a2);
    assert pow(r1, Weight(token)) <= pow(r2, Weight(token));
    ScaleMonotone(ToFloat7(pool.shares), pow(r1, Weight(token)) - 1.0, pow(r2, Weight(token)) - 1.0);
  }

  /** The pool balance ratio after a deposit: one plus the deposit net of the
      weighted fee over the token's pool balance. */
  function DepositRatio(token: Token, pool: BackstopToken, amount: int): real
    requires Balance(pool, token) != 0
  {
    1.0 + ToFloat7(amount) * (1.0 - WeightedFee(token)) / ToFloat7(Balance(pool, token))
  }

  /** The 1e7 scalings of the deposit and the balance cancel. */
  lemma DepositRatioSimplified(token: Token, pool: BackstopToken, amount: int)
    requires Balance(pool, token) != 0
    ensures DepositRatio(token, pool, amount)
         == 1.0 + amount as real * (1.0 - WeightedFee(token)) / Balance(pool, token) as real
  {
    var a := amount as real;
    var b := Balance(pool, token) as real;
    var keep := 1.0 - WeightedFee(token);
    assert ToFloat7(amount) == a / 10000000.0;
    assert ToFloat7(Balance(pool, token)) == b / 10000000.0;
    assert (a / 10000000.0 * keep) / (b / 10000000.0) == a * keep / b;
  }

  lemma DepositRatioMonotone(token: Token, pool: BackstopToken, a1: int, a2: int)
    requires Balance(pool, token) > 0
    requires 0 <= a1 <= a2
    ensures 0.0 < DepositRatio(token, pool, a1) <= DepositRatio(token, pool, a2)
  {
    var keep := 1.0 - WeightedFee(token);
    var bal := ToFloat7(Balance(pool, token));
    ToFloat7Monotone(0, a1);
    ToFloat7Monotone(a1, a2);
    ScaleMonotone(keep, ToFloat7(a1), ToFloat7(a2));
    ScaleMonotone(keep, 0.0, ToFloat7(a1));
    var n1 := ToFloat7(a1) * keep;
    var n2 := ToFloat7(a2) * keep;
    assert 0.0 <= n1 <= n2;
    DivideMonotone(n1, n2, bal);
    DivideMonotone(0.0, n1, bal);
  }

  lemma ScaleMonotone(k: real, x: real, y: real)
    requires k >= 0.0 && x <= y
    ensures k * x <= k * y && x * k <= y * k
  {
  }

  lemma DivideMonotone(x: real, y: real, d: real)
    requires d > 0.0 && x <= y
    ensures x / d <= y / d
  {
  }
}

=== FILE: fixed_math.dfy ===
/**
 * Fixed-point amounts as used by the lending protocol: an integer magnitude
 * with an implicit number of decimals. `ToFloat` is the boundary crossing into
 * the front-end's floating-point numbers, modelled here as exact reals.
 */
module FixedMath {

  /** Every backstop, Comet and auction amount the estimators read has 7 decimals. */
  const Decimals: nat := 7

  function Pow10(n: nat): (r: nat)
    ensures r >= 1
  {
    if n == 0 then 1 else 10 * Pow10(n - 1)
  }

  lemma {:induction false} Pow10Monotone(a: nat, b: nat)
    requires a <= b
    ensures Pow10(a) <= Pow10(b)
    decreases b - a
  {
    if a < b {
      Pow10Monotone(a, b - 1);
    }
  }

  lemma {:induction false} Pow10Add(a: nat, b: nat)
    ensures Pow10(a + b) == Pow10(a) * Pow10(b)
    decreases b
  {
    if b > 0 {
      Pow10Add(a, b - 1);
      assert Pow10(a + b) == 10 * Pow10(a + b - 1);
    }
  }

  /** `FixedMath.toFloat(raw, decimals)`: the raw magnitude divided by ten to the decimals. */
  function ToFloat(raw: int, decimals: nat): (r: real)
    ensures r * Pow10(decimals) as real == raw as real
    ensures raw >= 0 <==> r >= 0.0
  {
    raw as real / Pow10(decimals) as real
  }

  /** The seven-decimal conversion used throughout, `Number(x) / 1e7`. */
  function ToFloat7(raw: int): (r: real)
    ensures r * 10000000.0 == raw as real
  {
    assert Pow10(7) == 10000000;
    ToFloat(raw, Decimals)
  }

  lemma ToFloat7Monotone(a: int, b: int)
    requires a <= b
    ensures ToFloat7(a) <= ToFloat7(b)
  {
    assert ToFloat7(a) * 10000000.0 <= ToFloat7(b) * 10000000.0;
  }
}

=== FILE: formatter.dfy ===
/**
 * Display formatters (src/utils/formatter.ts): the guard branches and the
 * magnitude postfix of `toBalance`, `toPercentage`, `toCompactAddress` and
 * `toTimeSpan`. Digit rendering by `toFixed` and `Intl.NumberFormat` is a
 * parameter or left symbolic.
 */
module Formatter {
  import opened Wrappers
  import opened FixedMath
  import opened Strings

  /** Magnitude suffixes, one per power of a thousand. */
  const Postfixes: seq<string> := ["", "k", "M", "B", "T", "P", "E", "Z", "Y"]

  /** A JavaScript number: finite, or one of NaN and the infinities. */
  datatype JsNumber = Finite(value: real) | NonFinite

  /** The `bigint | number | undefined` argument of `toBalance`. */
  datatype BalanceInput = Undefined | Big(raw: int) | Num(n: JsNumber)

  /** What `toBalance` returns: the placeholder "--", the text "0", a number
      shown with a fixed count of fraction digits, or a mantissa shown with
      a fixed count of fraction digits followed by `Postfixes[postfixIndex]`. */
  datatype Balance =
    | Dashes
    | ZeroText
    | Fixed(value: real, fractionDigits: nat)
    | Compact(mantissa: real, fractionDigits: nat, postfixIndex: nat)

  function Abs(x: real): real {
    if x < 0.0 then -x else x
  }

  function MinNat(a: nat, b: nat): nat {
    if a <= b then a else b
  }

  /** The number `toBalance` formats, or None where it answers "--". */
  function NumValue(amount: BalanceInput, decimals: Option<nat>): (v: Option<real>)
    ensures v.None? <==> amount.Undefined? || amount == Num(NonFinite) || (amount.Big? && decimals.None?)
  {
    match amount
    case Undefined => None
    case Num(n) => if n.NonFinite? then None else Some(n.value)
    case Big(raw) => if decimals.None? then None else Some(ToFloat(raw, decimals.value))
  }

  /** `numValue.toFixed(0)` as an integer: the nearest integer, a tie going
      to the larger magnitude. */
  function RoundHalfAway(x: real): (n: int)
    ensures Abs(x - n as real) <= 0.5
    ensures x >= 0.0 ==> n as real - 0.5 <= x < n as real + 0.5
    ensures x < 0.0 ==> n as real - 0.5 < x <= n as real + 0.5
  {
    if x >= 0.0 then (x + 0.5).Floor else -((-x + 0.5).Floor)
  }

  /** `Math.min(Math.floor(places ? (places - 1) / 3 : 0), POSTFIXES.length - 1)`. */
  function PostfixIndexFor(integerPlaces: nat): (k: nat)
    ensures k < |Postfixes|
    ensures 1 <= integerPlaces <= 3 * |Postfixes| ==> 3 * k < integerPlaces <= 3 * k + 3
  {
    MinNat(if integerPlaces != 0 then (integerPlaces - 1) / 3 else 0, |Postfixes| - 1)
  }

  /** The postfix index as written: `integerPlaces` is the length of
      `toFixed(0)`, which counts the minus sign of a negative number. */
  function PostfixIndexAsWritten(rounded: int): (k: nat)
    ensures k < |Postfixes|
    ensures rounded >= 0 ==> k == PostfixIndex(rounded)
  {
    PostfixIndexFor(|IntToString(rounded)|)
  }

  /** The postfix index counting digits only. */
  function PostfixIndex(rounded: int): (k: nat)
    ensures k < |Postfixes|
  {
    PostfixIndexFor(|NatToString(if rounded < 0 then -rounded else rounded)|)
  }

  /** With the postfix chosen from the digit count, the mantissa of any
      non-zero number below 10^27 keeps one to three integer digits. */
  lemma PostfixLeavesOneToThreeDigits(rounded: int)
    requires rounded != 0
    ensures var a := if rounded < 0 then -rounded else rounded;
      a < Pow10(27) ==>
        Pow10(3 * PostfixIndex(rounded)) <= a < Pow10(3 * PostfixIndex(rounded) + 3)
  {
    var a: nat := if rounded < 0 then -rounded else rounded;
    var p := |NatToString(a)|;
    NatToStringLength(a);
    if a < Pow10(27) {
      if p > 27 {
        Pow10Monotone(27, p - 1);
        assert false;
      }
      var k := PostfixIndexFor(p);
      assert k == PostfixIndex(rounded);
      assert 3 * k <= p - 1 && p <= 3 * k + 3;
      Pow10Monotone(3 * k, p - 1);
      Pow10Monotone(p, 3 * k + 3);
    }
  }

  /** For -123456 the as-written index picks "M", leaving the mantissa
      -0.123456 without an integer digit, where "k" and -123.456 were meant. */
  lemma PostfixAsWrittenMisplacesNegatives()
    ensures PostfixIndexAsWritten(-123456) == 2
    ensures PostfixIndex(-123456) == 1
    ensures 123456 < Pow10(3 * PostfixIndexAsWritten(-123456))
  {
    assert NatToString(1) == "1";
    assert NatToString(12) == "12";
    assert NatToString(123) == "123";
    assert NatToString(1234) == "1234";
    assert NatToString(12345) == "12345";
    assert NatToString(123456) == "123456";
    assert |IntToString(-123456)| == 7;
    assert Pow10(3) == 1000;
    assert Pow10(6) == 1000 * Pow10(3) by { Pow10Add(3, 3); }
  }

  /** The postfix `toBalance` picks for a number: from the characters of its
      rounded value, as formatter.ts line 58 counts them. */
  function PostfixOf(numValue: real): (k: nat)
    ensures k < |Postfixes|
  {
    PostfixIndexAsWritten(RoundHalfAway(numValue))
  }

  /** `mantissa` followed by the postfix at `postfixIndex` stands for `value`. */
  predicate Denotes(mantissa: real, postfixIndex: nat, value: real) {
    mantissa * Pow10(3 * postfixIndex) as real == value
  }

  /** The compact form of a number: the mantissa left after dividing out the
      thousands the postfix stands for. */
  function CompactOf(numValue: real, fractionDigits: nat): (r: Balance)
    ensures r.Compact? && r.fractionDigits == fractionDigits && r.postfixIndex < |Postfixes|
    ensures r.postfixIndex == PostfixOf(numValue)
    ensures Denotes(r.mantissa, r.postfixIndex, numValue)
  {
    var k := PostfixOf(numValue);
    DividedOutDenotes(numValue, k);
    Compact(numValue / Pow10(3 * k) as real, fractionDigits, k)
  }

  /** Dividing out the postfix's thousands leaves a mantissa that denotes the number. */
  lemma DividedOutDenotes(x: real, k: nat)
    ensures Denotes(x / Pow10(3 * k) as real, k, x)
  {
    var scale := Pow10(3 * k) as real;
    assert scale != 0.0;
    assert x / scale * scale == x;
  }

  /** The branches of `toBalance` once the number to show is known. */
  function BalanceOf(numValue: real, decimals: Option<nat>): (r: Balance)
    ensures r != Dashes
    ensures r == ZeroText <==> numValue == 0.0
    ensures r.Fixed? ==> r.value == numValue && 0.0 < Abs(numValue) < 10000.0
    ensures r.Fixed? && (numValue >= 1.0 || Abs(numValue) >= 10.0) ==> r.fractionDigits == 2
    ensures r.Fixed? && numValue < 1.0 && Abs(numValue) < 10.0 ==> r.fractionDigits == MinNat(decimals.GetOr(7), 7)
    ensures r.Compact? ==>
      && Abs(numValue) >= 10000.0
      && r.fractionDigits == (if numValue >= 1.0 then 2 else MinNat(decimals.GetOr(7), 7))
      && r.postfixIndex < |Postfixes|
      && r.postfixIndex == PostfixOf(numValue)
      && Denotes(r.mantissa, r.postfixIndex, numValue)
  {
    var visibleDecimals :=
      if numValue == 0.0 then 0
      else if numValue >= 1.0 then 2
      else MinNat(decimals.GetOr(7), 7);
    if numValue == 0.0 then ZeroText
    else if Abs(numValue) < 10.0 then Fixed(numValue, visibleDecimals)
    else if Abs(numValue) < 10000.0 then Fixed(numValue, 2)
    else CompactOf(numValue, visibleDecimals)
  }

  /** `toBalance` up to the rendering of digits. */
  function ToBalance(amount: BalanceInput, decimals: Option<nat>): (r: Balance)
    ensures r == Dashes <==> NumValue(amount, decimals).None?
    ensures r == ZeroText <==> NumValue(amount, decimals) == Some(0.0)
    ensures r.Fixed? ==> NumValue(amount, decimals) == Some(r.value) && 0.0 < Abs(r.value) < 10000.0
    ensures r.Fixed? && r.value >= 1.0 ==> r.fractionDigits == 2
    ensures r.Fixed? ==> r.fractionDigits <= 7
    ensures r.Compact? ==>
      && NumValue(amount, decimals).Some?
      && Abs(NumValue(amount, decimals).value) >= 10000.0
      && r.postfixIndex < |Postfixes|
      && r.postfixIndex == PostfixOf(NumValue(amount, decimals).value)
      && Denotes(r.mantissa, r.postfixIndex, NumValue(amount, decimals).value)
  {
    match NumValue(amount, decimals)
    case None => Dashes
    case Some(numValue) => BalanceOf(numValue, decimals)
  }

  /** `toBalance(-123456)` divides by a million and shows "M", while
      `toBalance(123456)` divides by a thousand and shows "k". */
  lemma ToBalanceSixDigitNegative()
    ensures ToBalance(Num(Finite(-123456.0)), None).Compact?
    ensures ToBalance(Num(Finite(-123456.0)), None).postfixIndex == 2
    ensures ToBalance(Num(Finite(123456.0)), None).postfixIndex == 1
  {
    assert RoundHalfAway(-123456.0) == -123456;
    assert RoundHalfAway(123456.0) == 123456;
    PostfixAsWrittenMisplacesNegatives();
  }

  /** `toPercentage`; `format` stands for `Intl.NumberFormat` with `decimals`
      fraction digits. An undefined rate is shown as "--", which no formatted
      percentage can be, since each ends with '%'. */
  function ToPercentage(rate: Option<real>, decimals: nat, format: (real, nat) -> string): (s: string)
    ensures s == "--" <==> rate.None?
    ensures rate.Some? ==> |s| >= 1 && s[|s| - 1] == '%'
  {
    match rate
    case None => "--"
    case Some(x) =>
      var formatted := format(x * 100.0, decimals) + "%";
      assert formatted[|formatted| - 1] == '%' != "--"[1];
      formatted
  }

  /** `toCompactAddress`: the first and last four characters around "...". */
  function ToCompactAddress(address: Option<string>): (r: string)
    ensures address.None? || address == Some("") ==> r == ""
    ensures address.Some? && |address.value| < 10 ==> r == address.value
    ensures address.Some? && |address.value| >= 10 ==>
      && |r| == 11
      && r[..4] == address.value[..4]
      && r[4..7] == "..."
      && r[7..] == address.value[|address.value| - 4..]
  {
    match address
    case None => ""
    case Some(a) =>
      if a == "" then ""
      else if |a| < 10 then a
      else a[0..4] + "..." + a[|a| - 4..|a|]
  }

  /** Compacting an already compacted address changes nothing. */
  lemma CompactAddressIdempotent(address: Option<string>)
    ensures ToCompactAddress(Some(ToCompactAddress(address))) == ToCompactAddress(address)
  {
    var r := ToCompactAddress(address);
    if |r| >= 10 {
      assert r == r[..4] + "..." + r[7..];
    }
  }

  /** Days, hours, minutes and seconds of a time span. */
  datatype TimeParts = TimeParts(days: int, hours: int, minutes: int, seconds: int)

  /** One token of the rendered span: a count and its unit letter. */
  datatype TimeToken = TimeToken(value: int, unit: char)

  /** The decomposition in `toTimeSpan`; Dafny's division by a positive
      divisor is `Math.floor` of the quotient. */
  function Decompose(secondsLeft: int): (p: TimeParts)
    ensures p.days * 86400 + p.hours * 3600 + p.minutes * 60 + p.seconds == secondsLeft
    ensures 0 <= p.hours < 24 && 0 <= p.minutes < 60 && 0 <= p.seconds < 60
    ensures secondsLeft >= 0 ==> p.days >= 0
  {
    var d := secondsLeft / (3600 * 24);
    var afterDays := secondsLeft - d * 3600 * 24;
    var h := afterDays / 3600;
    var afterHours := afterDays - h * 3600;
    var m := afterHours / 60;
    TimeParts(d, h, m, afterHours - m * 60)
  }

  /** The tokens pushed by `toTimeSpan`, largest unit first. */
  function TimeTokens(p: TimeParts): (t: seq<TimeToken>)
    ensures 1 <= |t| <= 3
    ensures p.days != 0 ==> t[0] == TimeToken(p.days, 'd')
    ensures t[|t| - 1] == (if p.days == 0 then TimeToken(p.seconds, 's') else TimeToken(p.minutes, 'm'))
  {
    (if p.days != 0 then [TimeToken(p.days, 'd')] else [])
    + (if p.days != 0 || p.hours != 0 then [TimeToken(p.hours, 'h')] else [])
    + (if p.days != 0 || p.hours != 0 || p.minutes != 0 then [TimeToken(p.minutes, 'm')] else [])
    + (if p.days == 0 then [TimeToken(p.seconds, 's')] else [])
  }

  /** `d + 'd'` and the like: the count followed by its unit letter. */
  function TokenText(token: TimeToken): (s: string)
    ensures |s| >= 2 && s[|s| - 1] == token.unit
  {
    IntToString(token.value) + [token.unit]
  }

  function RenderTokens(tokens: seq<TimeToken>): (parts: seq<string>)
    ensures |parts| == |tokens|
    ensures forall i :: 0 <= i < |tokens| ==> parts[i] == TokenText(tokens[i])
  {
    if |tokens| == 0 then [] else [TokenText(tokens[0])] + RenderTokens(tokens[1..])
  }

  /** `toTimeSpan` for a whole number of seconds: the text ends in seconds
      when there are no days and in minutes otherwise. */
  function ToTimeSpan(secondsLeft: int): (s: string)
    ensures |s| >= 2
    ensures s[|s| - 1] == (if Decompose(secondsLeft).days == 0 then 's' else 'm')
  {
    var tokens := TimeTokens(Decompose(secondsLeft));
    RenderedEndsWithUnit(tokens);
    Join(RenderTokens(tokens), " ")
  }

  /** Joined tokens end with the last token's unit letter. */
  lemma RenderedEndsWithUnit(tokens: seq<TimeToken>)
    requires |tokens| > 0
    ensures var text := Join(RenderTokens(tokens), " ");
      |text| >= 2 && text[|text| - 1] == tokens[|tokens| - 1].unit
  {
    var parts := RenderTokens(tokens);
    var last := parts[|parts| - 1];
    assert last == TokenText(tokens[|tokens| - 1]);
    var text := Join(parts, " ");
    JoinEndsWithLast(parts, " ");
    assert text[|text| - |last|..] == last;
    assert text[|text| - 1] == last[|last| - 1];
  }

  predicate HasUnit(tokens: seq<TimeToken>, unit: char) {
    exists i :: 0 <= i < |tokens| && tokens[i].unit == unit
  }

  function UnitSeconds(unit: char): int {
    if unit == 'd' then 86400 else if unit == 'h' then 3600 else if unit == 'm' then 60 else 1
  }

  function UnitRank(unit: char): int {
    if unit == 'd' then 0 else if unit == 'h' then 1 else if unit == 'm' then 2 else 3
  }

  /** The seconds the tokens stand for. */
  function TokensSeconds(tokens: seq<TimeToken>): int {
    if |tokens| == 0 then 0 else tokens[0].value * UnitSeconds(tokens[0].unit) + TokensSeconds(tokens[1..])
  }

  /** Which tokens `toTimeSpan` shows: days when there are days, hours from
      the first non-zero unit on, and seconds only when there are no days;
      the units are distinct, largest first. */
  lemma TimeSpanTokens(secondsLeft: int)
    ensures var p := Decompose(secondsLeft);
      var t := TimeTokens(p);
      && |t| >= 1
      && (HasUnit(t, 'd') <==> p.days != 0)
      && (HasUnit(t, 'h') <==> p.days != 0 || p.hours != 0)
      && (HasUnit(t, 'm') <==> p.days != 0 || p.hours != 0 || p.minutes != 0)
      && (HasUnit(t, 's') <==> p.days == 0)
      && (forall i, j :: 0 <= i < j < |t| ==> UnitRank(t[i].unit) < UnitRank(t[j].unit))
  {
    var p := Decompose(secondsLeft);
    var t := TimeTokens(p);
    var d, h, m, sec := TimeToken(p.days, 'd'), TimeToken(p.hours, 'h'), TimeToken(p.minutes, 'm'), TimeToken(p.seconds, 's');
    if p.days != 0 {
      assert t == [d, h, m];
      assert t[0].unit == 'd' && t[1].unit == 'h' && t[2].unit == 'm';
    } else if p.hours != 0 {
      assert t == [h, m, sec];
      assert t[0].unit == 'h' && t[1].unit == 'm' && t[2].unit == 's';
    } else if p.minutes != 0 {
      assert t == [m, sec];
      assert t[0].unit == 'm' && t[1].unit == 's';
    } else {
      assert t == [sec];
      assert t[0].unit == 's';
    }
  }

  /** The shown tokens add up to the whole span, except that the seconds are
      dropped once days are shown. */
  lemma TimeSpanLosesOnlySeconds(secondsLeft: int)
    ensures var p := Decompose(secondsLeft);
      TokensSeconds(TimeTokens(p)) == secondsLeft - (if p.days != 0 then p.seconds else 0)
  {
    var p := Decompose(secondsLeft);
    var t := TimeTokens(p);
    var td := if p.days != 0 then [TimeToken(p.days, 'd')] else [];
    var th := if p.days != 0 || p.hours != 0 then [TimeToken(p.hours, 'h')] else [];
    var tm := if p.days != 0 || p.hours != 0 || p.minutes != 0 then [TimeToken(p.minutes, 'm')] else [];
    var ts := if p.days == 0 then [TimeToken(p.seconds, 's')] else [];
    assert t == td + (th + (tm + ts));
    TokensSecondsAppend(td, th + (tm + ts));
    TokensSecondsAppend(th, tm + ts);
    TokensSecondsAppend(tm, ts);
  }

  lemma {:induction false} TokensSecondsAppend(a: seq<TimeToken>, b: seq<TimeToken>)
    ensures TokensSeconds(a + b) == TokensSeconds(a) + TokensSeconds(b)
    decreases |a|
  {
    if |a| > 0 {
      var ab := a + b;
      assert ab[0] == a[0];
      assert ab[1..] == a[1..] + b;
      TokensSecondsAppend(a[1..], b);
      assert TokensSeconds(ab) == ab[0].value * UnitSeconds(ab[0].unit) + TokensSeconds(ab[1..]);
    } else {
      assert a + b == b;
    }
  }

  /** Under a minute only the seconds are shown: 0 reads "0s", 42 reads "42s". */
  lemma TimeSpanUnderAMinute(secondsLeft: int)
    requires 0 <= secondsLeft < 60
    ensures ToTimeSpan(secondsLeft) == NatToString(secondsLeft) + "s"
  {
    var p := Decompose(secondsLeft);
    assert p == TimeParts(0, 0, 0, secondsLeft);
    var t := TimeTokens(p);
    assert t == [TimeToken(secondsLeft, 's')];
    assert RenderTokens(t) == [TokenText(t[0])];
  }

  /** A span of zero seconds reads "0s". */
  lemma TimeSpanOfZero()
    ensures ToTimeSpan(0) == "0s"
  {
    var digits := NatToString(0);
    assert digits == [DigitChar(0)] == "0";
    TimeSpanUnderAMinute(0);
    assert digits + "s" == "0s";
  }
}

=== FILE: layout.dfy ===
/**
 * Selection logic of the default page layout (src/layouts/DefaultLayout.tsx)
 * and the pool-id check the pages share with it: which pool id from the URL
 * is accepted, which reward-zone pool the faucet banner shows, which protocol
 * version applies, and how wide the main column is.
 */
module Layout {
  import opened Wrappers
  import opened Backstop
  import opened Settings

  /** Pool ids are 56-character Stellar contract addresses. */
  const PoolIdLength: nat := 56

  /** The character class `[0-9A-Z]`. */
  predicate IsPoolIdChar(c: char) {
    ('0' <= c <= '9') || ('A' <= c <= 'Z')
  }

  /** Matches `[0-9A-Z]*`, one character at a time. */
  function AllPoolIdChars(s: string): (b: bool)
    ensures b <==> forall i :: 0 <= i < |s| ==> IsPoolIdChar(s[i])
  {
    if |s| == 0 then true
    else
      assert forall i :: 1 <= i < |s| ==> s[i] == s[1..][i - 1];
      IsPoolIdChar(s[0]) && AllPoolIdChars(s[1..])
  }

  /** `/^[0-9A-Z]{56}$/.test(s)`. */
  predicate MatchesPoolId(s: string) {
    |s| == PoolIdLength && AllPoolIdChars(s)
  }

  /** A router query parameter: absent, given once, or repeated. */
  datatype QueryValue = Absent | One(text: string) | Many(texts: seq<string>)

  /** `safePoolId` of the layout: the query's pool id when it is a single
      string of 56 characters from `[0-9A-Z]`, else undefined. */
  function SafePoolId(poolId: QueryValue): (r: Option<string>)
    ensures r.Some? <==>
      poolId.One? && |poolId.text| == 56 && forall i :: 0 <= i < |poolId.text| ==> IsPoolIdChar(poolId.text[i])
    ensures r.Some? ==> r.value == poolId.text
  {
    if poolId.One? && MatchesPoolId(poolId.text) then Some(poolId.text) else None
  }

  /** `safePoolId` of the supply, borrow and auction pages, which fall back to
      "" rather than undefined; "" is never a valid id, so the two agree. */
  function PageSafePoolId(poolId: QueryValue): (r: string)
    ensures r == SafePoolId(poolId).GetOr("")
    ensures r == "" <==> SafePoolId(poolId).None?
  {
    if poolId.One? && MatchesPoolId(poolId.text) then poolId.text else ""
  }

  /** `trackedPools.find(p => p.id === safePoolId)`; no id is ever undefined,
      so an undefined `safePoolId` finds nothing. */
  function TrackedPoolFor(pools: seq<TrackedPool>, safePoolId: Option<string>): (r: Option<TrackedPool>)
    ensures r.Some? ==> safePoolId.Some? && r.value.id == safePoolId.value && r.value in pools
    ensures r.None? ==> safePoolId.None? || !IsTracked(pools, safePoolId.value)
  {
    if safePoolId.None? then None else Find(pools, safePoolId.value)
  }

  /** `faucet_pool`: the last, that is oldest, pool of the reward zone once
      the backstop is loaded. */
  function FaucetPool(backstop: Option<BackstopConfig>): (r: Option<string>)
    ensures r.Some? <==> backstop.Some? && |backstop.value.rewardZone| > 0
    ensures r.Some? ==> r.value in backstop.value.rewardZone
  {
    if backstop.Some? && |backstop.value.rewardZone| > 0 then
      Some(backstop.value.rewardZone[|backstop.value.rewardZone| - 1])
    else
      None
  }

  /** The faucet pool is the oldest one: pools added in front of a non-empty
      reward zone do not change it. */
  lemma FaucetPoolIgnoresNewerPools(config: BackstopConfig, newer: seq<string>)
    requires |config.rewardZone| > 0
    ensures FaucetPool(Some(config.(rewardZone := newer + config.rewardZone))) == FaucetPool(Some(config))
    ensures FaucetPool(Some(config.(rewardZone := newer + config.rewardZone)))
         == Some(config.rewardZone[|config.rewardZone| - 1])
  {
  }

  /** The protocol version in use: the tracked pool's own `version` field
      whenever a pool is tracked, even when that field is undefined; else the
      URL's `version` when it is exactly "V1" or "V2"; else the settings'
      version. `tracked` is `None` for no tracked pool and `Some(field)` for a
      tracked one; `None` as a version stands for `undefined`. */
  function VersionOf(tracked: Option<Option<string>>, routerVersion: QueryValue,
                     settingsVersion: Option<string>): (v: Option<string>)
    ensures tracked.Some? ==> v == tracked.value
    ensures tracked.None? && routerVersion in {One("V1"), One("V2")} ==> v == Some(routerVersion.text)
    ensures tracked.None? && routerVersion !in {One("V1"), One("V2")} ==> v == settingsVersion
    ensures v.None? ==> tracked == Some(None) || (tracked.None? && settingsVersion.None?)
  {
    match tracked
    case Some(field) => field
    case None =>
      if routerVersion == One("V1") || routerVersion == One("V2") then Some(routerVersion.text) else settingsVersion
  }

  /** The version the layout computes for a page: the settings' tracked pools
      carry no `version` field, so a tracked pool yields an undefined version
      whatever the URL and the settings say; only an untracked pool falls back
      to the URL and then to the settings. */
  function PageVersion(pools: seq<TrackedPool>, poolId: QueryValue, routerVersion: QueryValue,
                       settingsVersion: Option<string>): (v: Option<string>)
    ensures TrackedPoolFor(pools, SafePoolId(poolId)).Some? ==> v.None?
    ensures SafePoolId(poolId).Some? && IsTracked(pools, SafePoolId(poolId).value) ==> v.None?
    ensures SafePoolId(poolId).None? ==> v == VersionOf(None, routerVersion, settingsVersion)
  {
    var tracked := TrackedPoolFor(pools, SafePoolId(poolId));
    VersionOf(if tracked.Some? then Some(None) else None, routerVersion, settingsVersion)
  }

  /** The main column's width and side margin. */
  datatype MainLayout = MainLayout(width: string, margin: string)

  /** `viewType <= ViewType.COMPACT` spans the screen; a regular view uses a
      fixed 886px column with 62px margins. */
  function MainLayoutOf(v: ViewType): (r: MainLayout)
    ensures Rank(v) <= Rank(Compact) ==> r == MainLayout("100%", "0px")
    ensures Rank(v) > Rank(Compact) ==> r == MainLayout("886px", "62px")
  {
    if Rank(v) <= Rank(Compact) then MainLayout("100%", "0px") else MainLayout("886px", "62px")
  }

  /** The column spans the screen exactly when the screen is below the `lg`
      breakpoint or below `sm`. */
  lemma FullWidthIffSmallScreen(mobile: bool, compact: bool)
    ensures MainLayoutOf(ViewTypeOf(mobile, compact)).width == "100%" <==> mobile || compact
  {
  }
}

=== FILE: settings.dfy ===
/**
 * User settings (src/contexts/settings.tsx): the list of tracked pools and
 * the view type derived from the screen-size breakpoints.
 */
module Settings {
  import opened Wrappers

  /** Declared in this order, so MOBILE < COMPACT < REGULAR. */
  datatype ViewType = Mobile | Compact | Regular

  /** The enum's numeric value, by which layouts compare view types. */
  function Rank(v: ViewType): nat {
    match v
    case Mobile => 0
    case Compact => 1
    case Regular => 2
  }

  /** Mobile (below the `sm` breakpoint) wins over compact (below `lg`). */
  function ViewTypeOf(mobile: bool, compact: bool): (v: ViewType)
    ensures v == Mobile <==> mobile
    ensures v == Compact <==> !mobile && compact
    ensures v == Regular <==> !mobile && !compact
  {
    if mobile then Mobile else if compact then Compact else Regular
  }

  datatype TrackedPool = TrackedPool(id: string, name: string)

  /** `trackedPools.find(pool => pool.id === id)`: the first pool with the id. */
  function Find(pools: seq<TrackedPool>, id: string): (r: Option<TrackedPool>)
    ensures r.None? <==> forall i :: 0 <= i < |pools| ==> pools[i].id != id
    ensures r.Some? ==> r.value.id == id && r.value in pools
    ensures r.Some? ==> exists i :: 0 <= i < |pools| && pools[i] == r.value
                          && forall j :: 0 <= j < i ==> pools[j].id != id
  {
    if |pools| == 0 then None
    else if pools[0].id == id then Some(pools[0])
    else
      var rest := Find(pools[1..], id);
      assert rest.Some? ==> exists i :: 1 <= i < |pools| && pools[i] == rest.value
                              && forall j :: 0 <= j < i ==> pools[j].id != id by {
        if rest.Some? {
          var k :| 0 <= k < |pools[1..]| && pools[1..][k] == rest.value
                   && forall j :: 0 <= j < k ==> pools[1..][j].id != id;
          assert pools[k + 1] == rest.value;
          assert forall j :: 0 <= j < k + 1 ==> pools[j].id != id by {
            forall j | 0 <= j < k + 1 ensures pools[j].id != id {
              if j > 0 { assert pools[j] == pools[1..][j - 1]; }
            }
          }
        }
      }
      rest
  }

  predicate IsTracked(pools: seq<TrackedPool>, id: string) {
    exists i :: 0 <= i < |pools| && pools[i].id == id
  }

  /** No two tracked pools share an id. */
  predicate UniqueIds(pools: seq<TrackedPool>) {
    forall i, j :: 0 <= i < j < |pools| ==> pools[i].id != pools[j].id
  }

  /** `trackPool`: append the pool unless its name is unknown or its id is
      already tracked. */
  function TrackPool(pools: seq<TrackedPool>, id: string, name: Option<string>): (r: seq<TrackedPool>)
    ensures name.None? ==> r == pools
    ensures IsTracked(pools, id) ==> r == pools
    ensures name.Some? && !IsTracked(pools, id) ==> r == pools + [TrackedPool(id, name.value)]
  {
    if name.None? then pools
    else if Find(pools, id).Some? then pools
    else pools + [TrackedPool(id, name.value)]
  }

  /** Tracking keeps the existing entries in order, tracks `id` afterwards once
      a name is known, and keeps ids unique. */
  lemma TrackPoolPreserves(pools: seq<TrackedPool>, id: string, name: Option<string>)
    requires UniqueIds(pools)
    ensures var r := TrackPool(pools, id, name);
      && r[..|pools|] == pools
      && (name.Some? ==> IsTracked(r, id))
      && UniqueIds(r)
  {
    var r := TrackPool(pools, id, name);
    if name.Some? && !IsTracked(pools, id) {
      assert r[|pools|].id == id;
    } else if name.Some? {
      var i :| 0 <= i < |pools| && pools[i].id == id;
      assert r[i].id == id;
    }
  }

  /** Tracking a pool a second time changes nothing: once a named pool is
      tracked, later calls for its id, with any name, leave the list alone. */
  lemma TrackPoolIdempotent(pools: seq<TrackedPool>, id: string, name: Option<string>, again: Option<string>)
    requires name.Some?
    ensures TrackPool(TrackPool(pools, id, name), id, again) == TrackPool(pools, id, name)
  {
    var r := TrackPool(pools, id, name);
    if !IsTracked(pools, id) {
      assert r[|pools|].id == id;
    } else {
      var i :| 0 <= i < |pools| && pools[i].id == id;
      assert r[i].id == id;
    }
  }
}

=== FILE: strings.dfy ===
/**
 * The few string operations the formatters rely on: JavaScript's decimal
 * rendering of an integer (`String(n)`, `n + 'd'`) and `Array.join`.
 */
module Strings {
  import opened FixedMath

  predicate IsDigit(c: char) {
    '0' <= c <= '9'
  }

  function DigitChar(d: nat): (c: char)
    requires d < 10
    ensures IsDigit(c)
  {
    ['0', '1', '2', '3', '4', '5', '6', '7', '8', '9'][d]
  }

  /** Decimal digits of a natural number, most significant first, no leading zeros. */
  function NatToString(n: nat): (s: string)
    ensures |s| >= 1
    ensures forall i :: 0 <= i < |s| ==> IsDigit(s[i])
    decreases n
  {
    if n < 10 then [DigitChar(n)] else NatToString(n / 10) + [DigitChar(n % 10)]
  }

  /** JavaScript's rendering of an integer: a leading '-' for negatives. */
  function IntToString(n: int): (s: string)
    ensures |s| >= 1
    ensures n >= 0 ==> s == NatToString(n)
    ensures n < 0 ==> s == "-" + NatToString(-n)
  {
    if n < 0 then "-" + NatToString(-n) else NatToString(n)
  }

  /** The number of characters of `NatToString(n)` is exactly n's digit count. */
  lemma {:induction false} NatToStringLength(n: nat)
    ensures Pow10(|NatToString(n)| - 1) <= n || n == 0
    ensures n < Pow10(|NatToString(n)|)
    decreases n
  {
    if n >= 10 {
      NatToStringLength(n / 10);
      var k := |NatToString(n / 10)|;
      assert |NatToString(n)| == k + 1;
      assert Pow10(k + 1) == 10 * Pow10(k);
      assert Pow10(k) == 10 * Pow10(k - 1);
    }
  }

  /** `Array.prototype.join`: the parts separated by `sep`. */
  function Join(parts: seq<string>, sep: string): (s: string)
    ensures |parts| == 1 ==> s == parts[0]
    ensures |parts| == 0 ==> s == ""
  {
    if |parts| == 0 then ""
    else if |parts| == 1 then parts[0]
    else parts[0] + sep + Join(parts[1..], sep)
  }

  /** A join ends with its last part. */
  lemma {:induction false} JoinEndsWithLast(parts: seq<string>, sep: string)
    requires |parts| > 0
    ensures var s := Join(parts, sep); var last := parts[|parts| - 1];
      |s| >= |last| && s[|s| - |last|..] == last
    decreases |parts|
  {
    if |parts| > 1 {
      JoinEndsWithLast(parts[1..], sep);
      var rest := Join(parts[1..], sep);
      assert parts[1..][|parts| - 2] == parts[|parts| - 1];
      var s := parts[0] + sep + rest;
      assert Join(parts, sep) == s;
      assert s[|s| - |rest|..] == rest;
    }
  }
}

=== FILE: wrappers.dfy ===
/** The optional value used wherever the front-end returns `undefined`. */
module Wrappers {

  datatype Option<+T> = None | Some(value: T) {

    /** Returns the value held in Some, or the given default when None. */
    function GetOr(default: T): T {
      match this
      case Some(v) => v
      case None => default
    }
  }
}
